=== FILE: README.md ===
# Multi-provider chat backend: a Dafny model

This project models the decision logic of a small FastAPI backend for an AI assistant.
The backend answers `/chat` requests by asking three completion backends in turn:

- Google Gemini;
- OpenAI;
- a local Ollama daemon.

When none of them answers, it uses a keyword table, and after that a fixed apology.
A `/switch_model` endpoint pins one provider.
The model covers:

- the live path of `chat_endpoint`;
- `switch_model` and the server state it changes;
- the parts of the Ollama and Gemini clients that decide what the endpoint sees: the default-model rule, model switching, prompt flattening, code-request options, the in-band error texts, the canned Fibonacci programs and the "not configured" texts;
- the per-conversation context, as an ordered association list so that the rendered `"key: value\n"` lines keep the dict's insertion order.

Every network or SDK call is an input to the model:

- the Gemini model is a function from prompt to outcome;
- the OpenAI API is a function from request to outcome;
- the Ollama model listing is a value;
- the Ollama daemon is a function from request to outcome.

The pinned and the default call sites get separate functions, because two calls to the same backend may answer differently.
Each call site becomes a `Trial`: skipped, rejected or accepted.
`Orchestration.RunTrials` takes the first accepted trial and records which clients were called. A client counts as called when its call site is entered, even if it answers without sending a request: a Quick Code hit and "No model available" are recorded as Ollama calls.

Modules, one per file:

- `Wrappers` (`wrappers.dfy`): `Option`.
- `Text` (`text.dfy`): ASCII `lower`/`strip`, substring search, decimal rendering.
- `ChatContext` (`context.dfy`): the context dict, `ctx[k] = v`, rendering.
- `Prompt` (`prompt.dfy`): messages and the flattening both clients share. The clients differ only in how a system turn is written.
- `QuickTemplates` (`templates.dfy`): the two canned Fibonacci programs, character for character.
- `OllamaClient` (`ollama.dfy`) and `GeminiClient` (`gemini.dfy`): the two clients.
- `Fallback` (`fallback.dfy`): the keyword table.
- `Orchestration` (`orchestration.dfy`): trials and the first-accepted run.
- `Registry` (`registry.dfy`): server state and `/switch_model`.
- `Chat` (`chat.dfy`): the `/chat` endpoint.
- `ChatProperties` (`chat_properties.dfy`): what the endpoint does across its inputs.

The model proves several consequences of the code as written:

- With Gemini pinned and configured, a rejected Gemini answer is followed by a second Gemini call (`ChatProperties.PinnedGeminiTriedTwice`).
- Pinning OpenAI changes nothing on the chat path (`ChatProperties.OpenAIPinIsInert`).
- Ollama's timeout text carries no "Error:" marker, and neither does an exception text that lacks one. Both pass the endpoint's filter and are returned as answers (`OllamaClient.ErrorMarkerIn`, `ChatProperties.PinnedOllamaTimeoutIsAnswer`).
- Ollama's "No model available" passes the same filter, under the label "Ollama (None)" (`ChatProperties.PinnedOllamaWithoutModel`).
- With Ollama pinned, `check_connection()` runs before every chat. It resets the current model to the preferred one, which undoes an earlier `/switch_model` (`ChatProperties.SwitchUndoneByChat`).
- `chat_endpoint` returns on every path by main.py:203. The code after that line (main.py:204-469) is unreachable, so it is not modelled.

Further facts about the code that the model states:

- A pinned Gemini or Ollama is called first, and the full default order runs after it, so the pinned backend can be called a second time (main.py:67-113).
- A selection string whose provider part is not "gemini", "ollama" or "openai" is read in full as an Ollama model name (main.py:549-554).
- No backend is probed before it is called, except through a pinned Ollama's model listing (main.py:84). Gemini and OpenAI are gated only by a configuration flag, and the default Ollama call only by the current model.
- A keyword answer is labelled "Rule-based Fallback" and recorded in the context. The apology is labelled "Error Fallback" and returns the context unchanged (main.py:186-203).

## Model

| member | source | states |
|---|---|---|
| Text.Lower | main.py:185 | `str.lower()` on ASCII: same length, each upper-case letter replaced by its lower-case letter, nothing else changed |
| Text.LowerConcat | ollama_client.py:48 | lower-casing works character by character, so it distributes over concatenation |
| Text.Strip | main.py:527-528 | `str.strip()`: the text between the leading and the trailing whitespace; the result neither starts nor ends with whitespace |
| Text.StripTrimmedIsIdentity | main.py:527 | stripping a text without surrounding whitespace changes nothing |
| Text.LowerOfLowerIsIdentity | main.py:527 | lower-casing a text without upper-case letters changes nothing |
| Text.Decimal | ollama_client.py:83 | `str(status_code)`: a non-empty string of decimal digits, with no leading zero, whose digits spell the code |
| ChatContext.Put | main.py:104-105 | `ctx[k] = v` adds one entry exactly when `k` is a new key |
| ChatContext.PutLookup | main.py:104-105 | after `ctx[k] = v`, `k` reads `v` and every other key reads what it read before |
| ChatContext.PutKeys | main.py:104-105 | an existing key keeps its position; a new key is appended last |
| ChatContext.PutWellFormed | main.py:104-105 | `ctx[k] = v` never creates a duplicate key |
| ChatContext.PutPutKeys | main.py:104-105 | two writes to distinct keys append the new keys among them, in the order written |
| ChatContext.MergeKeys | main.py:103-105 | recording a turn adds `last_message` and then `last_answer` at the end, each only if new |
| ChatContext.Merge | main.py:103-105 | after recording a turn, `last_message` reads the message and `last_answer` the answer; every other key is unchanged; the key order is kept; a dict stays a dict |
| ChatContext.Render | main.py:48-51 | the context string is empty exactly when the context is |
| ChatContext.RenderConcat | main.py:50-51 | the context string of two contexts is the concatenation of their strings |
| ChatContext.RenderLines | main.py:50-51 | each entry contributes its own `"key: value\n"` line at its own position |
| Prompt.FlattenEndsWithCue | ollama_client.py:108 | every flattened prompt ends with "Assistant: " |
| Prompt.BodyConcat | ollama_client.py:97-106 | flattening proceeds message by message: a list's text is the concatenation of its parts' texts |
| Prompt.FlattenCons | gemini_client.py:60-71 | the first message's text comes first, followed by the flattened rest |
| Prompt.KnownTurns | gemini_client.py:64-67 | a system turn is wrapped in the client's prefix and suffix; a user turn becomes a "Human: " line |
| Prompt.MissingRoleIsUser | ollama_client.py:99-104 | a message with no role is written as a user turn |
| Prompt.UnknownRoleIgnored | ollama_client.py:101-106 | a message whose role is not system, user or assistant adds nothing to the prompt |
| OllamaClient.DefaultModel | ollama_client.py:26-31 | after a non-empty listing, the model is the most preferred listed one ("mistral:latest", then "gpt-oss:20b", then the first listed); after an empty listing the current model stays |
| OllamaClient.CheckConnection | ollama_client.py:18-35 | succeeds exactly on a listing; a listing replaces the available models and sets the current model by the preference rule of `DefaultModel`, which keeps it on an empty listing; a failure changes nothing |
| OllamaClient.Init | ollama_client.py:10-14 | a new client has a model exactly when the daemon listed at least one |
| OllamaClient.SwitchModel | ollama_client.py:112-120 | succeeds and selects the model exactly when it is listed; otherwise changes nothing |
| OllamaClient.ConsistencyAcrossCalls | ollama_client.py:22-31 | switching and non-empty listings keep the current model among the listed ones; an empty listing leaves an unlisted current model |
| OllamaClient.ListingUndoesSwitch | ollama_client.py:26-27 | a listing that contains "mistral:latest" overrides any earlier switch to another model |
| OllamaClient.BuildRequest | ollama_client.py:48-71 | a prompt that mentions a code keyword gets 500 tokens, the "\n\n\n" stop and a 15-second timeout; any other prompt gets 200 tokens, no stop and the caller's timeout |
| OllamaClient.TimeoutTextHasNoColon | ollama_client.py:86 | the timeout message contains no colon |
| OllamaClient.TimeoutTextUnmarked | ollama_client.py:86 | the timeout message does not contain "Error:" |
| OllamaClient.NoResponseUnmarked | ollama_client.py:81 | the missing-field message does not contain "Error:" |
| OllamaClient.ExceptionTextMarkedIff | ollama_client.py:88 | an exception's text contains "Error:" exactly when the exception's own message does |
| OllamaClient.StatusTextMarked | ollama_client.py:83 | a non-200 reply always yields text containing "Error:" |
| OllamaClient.ErrorMarkerIn | ollama_client.py:79-88 | the returned text contains "Error:" exactly for non-200 replies and for replies or exceptions whose own text contains it; it is empty exactly for an empty `response` field |
| OllamaClient.GenerateResponse | ollama_client.py:40-88 | without a model (argument or current) the result is "No model available"; otherwise it is the text for the daemon's answer to the request built for the prompt |
| OllamaClient.ChatCompletion | ollama_client.py:90-110 | without a model the result is "No model available"; otherwise it is the generation for the flattened prompt with a 10-second timeout |
| OllamaClient.QuickCode | ollama_client.py:122-204 | the C++ program exactly for a Fibonacci request mentioning "cpp" or "c++"; otherwise the Python program exactly when "python" is mentioned; otherwise nothing; matching ignores case |
| GeminiClient.SetupClient | gemini_client.py:16-30 | succeeds exactly with a non-empty key the SDK accepts, and then the client is configured; a failure changes nothing |
| GeminiClient.Init | gemini_client.py:10-14 | a new client is configured exactly when the given or the environment's key is non-empty and the SDK accepts it |
| GeminiClient.GenerateResponse | gemini_client.py:32-52 | "Gemini not configured" when unconfigured; the generated text; or "Gemini error: " followed by the exception's message |
| GeminiClient.ChatCompletion | gemini_client.py:54-73 | "Gemini not configured" when unconfigured; otherwise the generation for the flattened prompt |
| GeminiClient.FailuresAreFlagged | gemini_client.py:34-52 | the returned text is free of both failure markers exactly when the model produced text that is itself free of them |
| Fallback.FirstMatch | main.py:186-187 | the index of the first table row whose keyword occurs in the text; none when no keyword occurs |
| Fallback.Respond | main.py:173-196 | the answer of the first keyword, in table order, that occurs in the lower-cased and stripped message; none exactly when no keyword occurs |
| Fallback.TableTrimmed | main.py:173-182 | no keyword starts or ends with whitespace |
| Fallback.StripIsIrrelevant | main.py:185-187 | stripping the message before matching changes neither which keywords match nor the answer |
| Fallback.FirstMatchAgrees | main.py:186-187 | two texts that match the same keywords get the same first match |
| Orchestration.RunTrials | main.py:95-170 | the winner is the first accepted call site; the clients called are the non-skipped sites up to it, or all of them when none is accepted |
| Orchestration.AttemptedComesFrom | main.py:95-170 | every client recorded as called belongs to a call site that was not skipped |
| Orchestration.AttemptedRanksRise | main.py:95-170 | call sites in priority order yield calls in priority order |
| Orchestration.RunRanksRise | main.py:95-170 | when the call sites are in priority order, no client is called twice and the calls follow that order |
| Orchestration.RunStartsWithFirst | main.py:67-72 | a first call site that is not skipped is the first client called |
| Orchestration.RunStartsWith | main.py:67-100 | a rejected first call followed by a second call site that is not skipped makes those two the first clients called |
| Registry.SplitAtFirst | main.py:526 | `split(":", 1)`: the text before the first colon and the rest, which rejoin to the input |
| Registry.SplitAtFirstUnique | main.py:526 | the split is the only one whose first part contains no colon |
| Registry.SwitchLegacy | main.py:549-554 | an available Ollama model is selected and Ollama pinned; any other name is refused with no change |
| Registry.SwitchModel | main.py:513-554 | no name: refused, no change; "gemini:…" and "openai:…" always pin that provider; "ollama:…" pins Ollama and switches the model exactly when it is listed; anything else is the legacy form; Gemini and OpenAI state never changes |
| Registry.RefusalKeepsState | main.py:537-543 | a refusal changes nothing, except that an "ollama:…" request for an unlisted model still pins Ollama |
| Registry.TagNamesAreLegacy | main.py:525-550 | an Ollama tag name whose family is not a provider name is read as a model name in full |
| Chat.Preamble | main.py:54-59 | the instruction turn, then a "Context: " system turn exactly when the context is non-empty |
| Chat.Conversation | main.py:53-61 | the system turns first and the user's message last |
| Chat.ConversationPrompt | main.py:48-61 | the prompt either client sends: the instruction and the rendered context in the client's system style, the message as a "Human: " line, then the cue |
| Chat.CodeMessageIsCodeRequest | ollama_client.py:48-58 | a message that mentions a code keyword makes the Ollama prompt a code request |
| Chat.OnlyApologyIsErrorLabelled | main.py:194-201 | the Gemini, OpenAI, Ollama, quick-code and keyword labels all differ from "Error Fallback" |
| Chat.GeminiTrial | main.py:98-113 | skipped exactly when Gemini is unconfigured; accepted exactly when the model produced non-empty text with neither "Gemini error" nor "not configured", which is then the answer |
| Chat.OpenAITrial | main.py:116-138 | skipped exactly without a client; otherwise accepted exactly when the call returned, with its content unfiltered |
| Chat.OllamaCompletion | main.py:157-168 | without a model, "No model available" is accepted; otherwise accepted exactly when the daemon's outcome yields non-empty text without "Error:", including timeouts |
| Chat.OllamaPinnedTrial | main.py:84-93 | skipped exactly when the model listing failed; otherwise an Ollama completion |
| Chat.OllamaDefaultTrial | main.py:141-170 | skipped exactly without a current model; a Fibonacci template is accepted with the "- Quick Code" label without the daemon being asked; otherwise an Ollama completion |
| Chat.After | main.py:81-84 | only a pinned Ollama changes the server state: its Ollama client becomes what `check_connection()` leaves; nothing else changes |
| Chat.PinnedTrials | main.py:67-93 | one call site exactly when Gemini or Ollama is pinned, for that backend; none for OpenAI or no pin |
| Chat.DefaultTrials | main.py:95-170 | three call sites, Gemini, OpenAI, Ollama, in priority order |
| Chat.Decide | main.py:172-203 | the first accepted call site answers and its answer is merged into the context; otherwise the keyword table answers, merged; otherwise the apology with the context unchanged |
| Chat.Chat | main.py:43-203 | the whole endpoint: pinned site, then the default order; first accepted answer, its label and the merged context; the keyword fallback; the apology; the clients called; the state left behind |
| ChatProperties.UnpinnedOrder | main.py:95-170 | without an honoured pin, clients are called in the order Gemini, OpenAI, Ollama, each at most once |
| ChatProperties.DecideIgnoresServer | main.py:172-203 | the reply depends on the server state only through the state it returns |
| ChatProperties.OpenAIPinTrials | main.py:66-95 | an OpenAI pin yields the same call sites as no pin |
| ChatProperties.OpenAIPinIsInert | main.py:66-95 | an OpenAI pin gives the same reply as no pin, apart from the pin itself |
| ChatProperties.PinnedTriedFirst | main.py:67-93 | a configured pinned Gemini, or a pinned Ollama whose daemon lists models, is called first |
| ChatProperties.PinnedGeminiTriedTwice | main.py:67-113 | when a pinned Gemini's answer is rejected, the first two calls both go to Gemini |
| ChatProperties.PinnedOllamaResetsModel | main.py:81-86 | a pinned Ollama's listing resets the current model to "mistral:latest" whenever it is listed |
| ChatProperties.SwitchUndoneByChat | main.py:537-541 | a switch to "ollama:name" selects `name`; the next chat selects "mistral:latest" again |
| ChatProperties.PinnedOllamaWithoutModel | main.py:84-91 | with no model listed or chosen, "No model available" is the answer, labelled "Ollama (None)", and nothing else is called |
| ChatProperties.PinnedOllamaTimeoutIsAnswer | main.py:86-91 | a pinned Ollama call that times out returns the timeout message as the model's answer |
| ChatProperties.QuickCodeIgnoresDaemon | main.py:141-154 | a Fibonacci request for C++ or Python gets the same reply whatever the default Ollama call would have returned |
| ChatProperties.BackendsNeverErrorLabelled | main.py:77-166 | no backend's accepted answer carries the "Error Fallback" label |
| ChatProperties.ContextRecordsAnswer | main.py:186-203 | a reply is labelled "Error Fallback" exactly when no backend answered and no keyword matched; that reply is the apology with the context unchanged; every other reply records the message and the answer; a dict stays a dict |

## Left out

- The desktop window (modern_gui.py) and the voice assistant (voice_assistant.py). They are user interface and audio I/O, and are not part of this model.
- Real HTTP, SDK and environment access: `requests`, `google.generativeai`, the OpenAI client, `load_dotenv`, `os.getenv`. Each appears as an input value or function.
- main.py:204-469. It comes after every `return` of `chat_endpoint` and can never run.
- The `/`, `/task` and `/models` endpoints, the `print` logging and the uvicorn start-up. None of them takes part in a decision.
- Concurrency. Requests are modelled one at a time against an explicit server state; interleaving async requests over the global `selected_provider` is not modelled.
- Temperature and top_p are floats in the source; the model keeps them as opaque labels. The Gemini generation settings (model name, temperature, token limit) are not modelled, because the model function receives only the prompt.
- Text.Lower: only ASCII letters are lower-cased; Python's Unicode case mapping is not modelled.
- Text.Strip: only ASCII whitespace is stripped; Unicode whitespace is not modelled.
- ChatContext.Merge: context values are held as the strings `str(value)` gives; values that are not strings are not modelled separately.
- Chat.OpenAITrial: the first choice's content is always a string; a `None` content, which the code would return as the answer, is not modelled.
- OllamaClient.CheckConnection: a failed listing, a non-200 status and an unreadable body are one outcome, `Unreachable`, because the code treats them all the same.
- OllamaClient.ErrorMarkerIn: the JSON `response` field is a string or absent. A `null` or other non-string value is not modelled. A `null` is falsy, so the endpoint's filter rejects it. A body that is not JSON makes `response.json()` raise, which the model covers as an exception (`Raised`).
- Registry.SwitchModel: the name is a string or absent; other JSON values are not modelled. For them the code behaves as follows. A non-zero number or `true` makes the colon test at main.py:525 raise; a zero is falsy and is refused as "Model name required" at main.py:519-520. A list or dict is tested for membership instead. One holding the element or key ":" makes `split` raise. Any other non-empty one is refused through the legacy path ("Could not switch to …").
- The `try`/`except` around the Gemini and Ollama calls in main.py. Neither client's `chat_completion` raises, because both catch every exception and return text. The handlers are reached only when the "Error:" test on the answer raises. That happens only when a 200 reply's `response` field is a non-zero number or `true`. A non-empty list or dict is tested for membership instead: it is accepted and returned as the answer unless it holds the element or key "Error:". All of these cases are left out above.

=== FILE: chat.dfy ===
/**
  The `/chat` endpoint: build the conversation, try the pinned provider (if one is pinned and
  it is Gemini or Ollama), then Gemini, OpenAI and Ollama in that order, and fall back to the
  keyword table and finally to a fixed apology. Every network call is an input: the two
  Gemini calls, the OpenAI call, the Ollama model listing and the two Ollama generations each
  get a function of the request they are sent.
 */
module Chat {
  import opened Wrappers
  import opened Text
  import opened ChatContext
  import opened Orchestration
  import opened Registry
  import Prompt
  import GeminiClient
  import OllamaClient
  import Fallback

  /** The fixed system instruction. */
  const Instructions := "You are a helpful AI assistant that can understand and respond to queries while maintaining context."

  /** The system turns before the user's message: the instruction, then the context if any. */
  function Preamble(ctx: Context): (ms: seq<Prompt.Message>)
    ensures |ms| == if |ctx| == 0 then 1 else 2
    ensures ms[0] == Prompt.SystemTurn(Instructions)
    ensures |ctx| > 0 ==> ms[1] == Prompt.SystemTurn("Context: " + Render(ctx))
  {
    [Prompt.SystemTurn(Instructions)] + (if Render(ctx) != "" then [Prompt.SystemTurn("Context: " + Render(ctx))] else [])
  }

  /** The message list sent to every backend. */
  function Conversation(ctx: Context, message: string): (ms: seq<Prompt.Message>)
    ensures |ms| == |Preamble(ctx)| + 1
    ensures ms[|ms| - 1] == Prompt.UserTurn(message)
    ensures forall i :: 0 <= i < |ms| - 1 ==> ms[i].role == Some("system")
  {
    Preamble(ctx) + [Prompt.UserTurn(message)]
  }

  /**
    The prompt either client builds from the conversation, spelled out: the instruction and
    the rendered context as system turns in the client's style, the message as a "Human: "
    line, then the assistant cue.
   */
  lemma ConversationPrompt(style: Prompt.Style, ctx: Context, message: string)
    ensures Prompt.Flatten(style, Conversation(ctx, message)) ==
      (style.systemPrefix + Instructions + style.systemSuffix)
      + (if |ctx| > 0 then style.systemPrefix + ("Context: " + Render(ctx)) + style.systemSuffix else "")
      + ("Human: " + message + "\n")
      + Prompt.Closing
  {
    var pre := Preamble(ctx);
    var user := Prompt.UserTurn(message);
    var system := Prompt.SystemTurn(Instructions);
    var head := style.systemPrefix + Instructions + style.systemSuffix;
    var context := if |ctx| > 0 then style.systemPrefix + ("Context: " + Render(ctx)) + style.systemSuffix else "";
    var line := "Human: " + message + "\n";
    Prompt.BodyConcat(style, pre, [user]);
    Prompt.KnownTurns(style, Instructions);
    Prompt.KnownTurns(style, message);
    assert Prompt.Body(style, [user]) == line;
    if |ctx| > 0 {
      var shown := Prompt.SystemTurn("Context: " + Render(ctx));
      Prompt.KnownTurns(style, "Context: " + Render(ctx));
      assert pre == [system] + [shown];
      Prompt.BodyConcat(style, [system], [shown]);
      assert Prompt.Body(style, [shown]) == context;
    } else {
      assert pre == [system];
    }
    assert Prompt.Body(style, pre) == head + context;
  }

  /**
    A message that mentions a code keyword makes the Ollama prompt a code request, so the
    Ollama calls for it use the code options and the 15-second timeout.
   */
  lemma CodeMessageIsCodeRequest(ctx: Context, message: string, k: nat)
    requires k < |OllamaClient.CodeKeywords| && Contains(Lower(message), OllamaClient.CodeKeywords[k])
    ensures OllamaClient.IsCodeRequest(OllamaClient.PromptOf(Conversation(ctx, message)))
  {
    var style := OllamaClient.Style;
    ConversationPrompt(style, ctx, message);
    var system := (style.systemPrefix + Instructions + style.systemSuffix)
      + (if |ctx| > 0 then style.systemPrefix + ("Context: " + Render(ctx)) + style.systemSuffix else "");
    var human := "Human: " + message;
    var line := human + "\n";
    var key := OllamaClient.CodeKeywords[k];
    LowerConcat("Human: ", message);
    ContainsRight(Lower("Human: "), Lower(message), key);
    LowerConcat(human, "\n");
    ContainsLeft(Lower(human), Lower("\n"), key);
    LowerConcat(system, line);
    ContainsRight(Lower(system), Lower(line), key);
    LowerConcat(system + line, Prompt.Closing);
    ContainsLeft(Lower(system + line), Lower(Prompt.Closing), key);
  }

  /** The OpenAI chat-completions request. */
  datatype OpenAIRequest = OpenAIRequest(model: string, messages: seq<Prompt.Message>, maxTokens: nat, timeout: nat)

  /** What the OpenAI call did: returned a first choice's content, or raised. */
  datatype OpenAIOutcome = Completed(content: string) | Failed(error: string)

  type OpenAIApi = OpenAIRequest -> OpenAIOutcome

  /** Everything outside the process that one chat request consults. */
  datatype Env = Env(
    geminiPinned: GeminiClient.Model,
    geminiDefault: GeminiClient.Model,
    openai: OpenAIApi,
    tags: OllamaClient.TagsOutcome,
    ollamaPinned: OllamaClient.Daemon,
    ollamaDefault: OllamaClient.Daemon)

  const GeminiLabel := "Google Gemini Pro"
  const OpenAILabel := "OpenAI GPT-3.5"
  const RuleLabel := "Rule-based Fallback"
  const ErrorLabel := "Error Fallback"

  function OllamaLabel(model: string): string { "Ollama (" + model + ")" }
  function QuickLabel(model: string): string { "Ollama (" + model + ") - Quick Code" }

  /** Only the apology carries the "Error Fallback" label: every other label starts differently. */
  lemma OnlyApologyIsErrorLabelled()
    ensures forall m :: OllamaLabel(m) != ErrorLabel && QuickLabel(m) != ErrorLabel
    ensures GeminiLabel != ErrorLabel && OpenAILabel != ErrorLabel && RuleLabel != ErrorLabel
  {
    forall m ensures OllamaLabel(m) != ErrorLabel && QuickLabel(m) != ErrorLabel {
      assert OllamaLabel(m)[0] == 'O' && QuickLabel(m)[0] == 'O';
    }
    assert ErrorLabel[0] == 'E';
    assert GeminiLabel[0] == 'G' && OpenAILabel[0] == 'O' && RuleLabel[0] == 'R';
  }

  /** The Gemini answer filter: non-empty and free of both failure markers. */
  predicate GeminiAcceptable(text: string) {
    text != "" && !GeminiClient.Flagged(text)
  }

  /**
    One Gemini call site: skipped unless the client is configured; accepted exactly when the
    model produced text that passes the filter, which is then the answer.
   */
  function GeminiTrial(st: GeminiClient.State, conv: seq<Prompt.Message>, model: GeminiClient.Model): (t: Trial)
    ensures t.backend == Gemini
    ensures t.outcome.Skipped? <==> !st.configured
    ensures t.outcome.Accepted? <==>
      st.configured && model(GeminiClient.PromptOf(conv)).Generated? && GeminiAcceptable(model(GeminiClient.PromptOf(conv)).text)
    ensures t.outcome.Accepted? ==> t.outcome == Accepted(model(GeminiClient.PromptOf(conv)).text, GeminiLabel)
  {
    if !st.configured then Trial(Gemini, Skipped)
    else
      var answer := GeminiClient.ChatCompletion(st, conv, model);
      GeminiClient.FailuresAreFlagged(st, GeminiClient.PromptOf(conv), model);
      if answer != "" && !GeminiClient.Flagged(answer) then Trial(Gemini, Accepted(answer, GeminiLabel))
      else Trial(Gemini, Rejected)
  }

  /** The request `chat_endpoint` sends to OpenAI. */
  function OpenAIRequestFor(conv: seq<Prompt.Message>): OpenAIRequest {
    OpenAIRequest("gpt-3.5-turbo", conv, 500, 10)
  }

  /** The OpenAI call site: skipped without a client; any content it returns is accepted unfiltered. */
  function OpenAITrial(present: bool, conv: seq<Prompt.Message>, api: OpenAIApi): (t: Trial)
    ensures t.backend == OpenAI
    ensures t.outcome.Skipped? <==> !present
    ensures present ==> (t.outcome.Accepted? <==> api(OpenAIRequestFor(conv)).Completed?)
    ensures t.outcome.Accepted? ==> t.outcome == Accepted(api(OpenAIRequestFor(conv)).content, OpenAILabel)
  {
    if !present then Trial(OpenAI, Skipped)
    else match api(OpenAIRequestFor(conv))
      case Completed(content) => Trial(OpenAI, Accepted(content, OpenAILabel))
      case Failed(_) => Trial(OpenAI, Rejected)
  }

  /** The daemon outcomes whose text passes the Ollama filter (non-empty, no "Error:"). */
  predicate OllamaPasses(o: OllamaClient.PostOutcome) {
    match o
    case Replied(status, response, _) =>
      status == 200 && (response.None? || (response.value != "" && !Contains(response.value, OllamaClient.ErrorMarker)))
    case TimedOut => true
    case Raised(e) => !Contains(e, OllamaClient.ErrorMarker)
  }

  /** The request the Ollama client sends for the conversation with the given model. */
  function OllamaRequestFor(model: string, conv: seq<Prompt.Message>): OllamaClient.Request {
    OllamaClient.BuildRequest(model, OllamaClient.PromptOf(conv), 10)
  }

  /**
    An Ollama `chat_completion` under the endpoint's filter: without a model the client's
    "No model available" passes; otherwise the call is accepted exactly when the daemon's
    outcome passes, timeouts and non-marked exceptions included.
   */
  function OllamaCompletion(st: OllamaClient.State, conv: seq<Prompt.Message>, daemon: OllamaClient.Daemon): (o: Outcome)
    ensures !o.Skipped?
    ensures !OllamaClient.Truthy(st.current) ==> o == Accepted(OllamaClient.NoModel, OllamaLabel(OllamaClient.ShowModel(st.current)))
    ensures OllamaClient.Truthy(st.current) ==>
      && (o.Accepted? <==> OllamaPasses(daemon(OllamaRequestFor(st.current.value, conv))))
      && (o.Accepted? ==> o == Accepted(OllamaClient.Interpret(daemon(OllamaRequestFor(st.current.value, conv))), OllamaLabel(st.current.value)))
  {
    var answer := OllamaClient.ChatCompletion(st, conv, None, daemon);
    if !OllamaClient.Truthy(st.current) then
      assert ':' !in OllamaClient.NoModel;
      MissingCharExcludes(OllamaClient.NoModel, OllamaClient.ErrorMarker, 5);
      Accepted(answer, OllamaLabel(OllamaClient.ShowModel(st.current)))
    else
      OllamaClient.ErrorMarkerIn(daemon(OllamaRequestFor(st.current.value, conv)));
      if answer != "" && !Contains(answer, OllamaClient.ErrorMarker) then Accepted(answer, OllamaLabel(st.current.value))
      else Rejected
  }

  /** The pinned Ollama call site, after `check_connection()`: skipped when it failed. */
  function OllamaPinnedTrial(connected: bool, st: OllamaClient.State, conv: seq<Prompt.Message>, daemon: OllamaClient.Daemon): (t: Trial)
    ensures t.backend == Ollama
    ensures t.outcome.Skipped? <==> !connected
    ensures connected ==> t.outcome == OllamaCompletion(st, conv, daemon)
  {
    if connected then Trial(Ollama, OllamaCompletion(st, conv, daemon)) else Trial(Ollama, Skipped)
  }

  /**
    The default Ollama call site: skipped without a current model; a Fibonacci request for
    C++ or Python gets its template without the daemon being asked; anything else is a
    filtered `chat_completion`.
   */
  function OllamaDefaultTrial(st: OllamaClient.State, message: string, conv: seq<Prompt.Message>, daemon: OllamaClient.Daemon): (t: Trial)
    ensures t.backend == Ollama
    ensures t.outcome.Skipped? <==> !OllamaClient.Truthy(st.current)
    ensures OllamaClient.Truthy(st.current) && OllamaClient.QuickCode(message).Some? ==>
      t.outcome == Accepted(OllamaClient.QuickCode(message).value.Text(), QuickLabel(st.current.value))
    ensures OllamaClient.Truthy(st.current) && OllamaClient.QuickCode(message).None? ==>
      t.outcome == OllamaCompletion(st, conv, daemon)
  {
    if !OllamaClient.Truthy(st.current) then Trial(Ollama, Skipped)
    else match OllamaClient.QuickCode(message)
      case Some(template) => Trial(Ollama, Accepted(template.Text(), QuickLabel(st.current.value)))
      case None => Trial(Ollama, OllamaCompletion(st, conv, daemon))
  }

  /** The server state the request leaves: only a pinned Ollama's `check_connection()` changes it. */
  function After(s: Server, tags: OllamaClient.TagsOutcome): (s': Server)
    ensures s'.selected == s.selected && s'.gemini == s.gemini && s'.openaiPresent == s.openaiPresent
    ensures s.selected != Some(Ollama) ==> s' == s
    ensures s.selected == Some(Ollama) ==> s'.ollama == OllamaClient.CheckConnection(s.ollama, tags).1
  {
    if s.selected == Some(Ollama) then s.(ollama := OllamaClient.CheckConnection(s.ollama, tags).1) else s
  }

  /** The pinned provider's call site, if the pin is one the endpoint honours. */
  function PinnedTrials(s: Server, conv: seq<Prompt.Message>, env: Env): (ts: seq<Trial>)
    ensures |ts| <= 1
    ensures |ts| == 1 <==> s.selected in {Some(Gemini), Some(Ollama)}
    ensures |ts| == 1 ==> Some(ts[0].backend) == s.selected
  {
    match s.selected
    case Some(Gemini) => [GeminiTrial(s.gemini, conv, env.geminiPinned)]
    case Some(Ollama) =>
      var (connected, st) := OllamaClient.CheckConnection(s.ollama, env.tags);
      [OllamaPinnedTrial(connected, st, conv, env.ollamaPinned)]
    case _ => []
  }

  /** The three default call sites, in priority order, against the state left by the pinned one. */
  function DefaultTrials(s: Server, message: string, conv: seq<Prompt.Message>, env: Env): (ts: seq<Trial>)
    ensures |ts| == 3 && TrialRanksRise(ts)
  {
    [ GeminiTrial(s.gemini, conv, env.geminiDefault),
      OpenAITrial(s.openaiPresent, conv, env.openai),
      OllamaDefaultTrial(s.ollama, message, conv, env.ollamaDefault) ]
  }

  function Trials(s: Server, ctx: Context, message: string, env: Env): seq<Trial> {
    var conv := Conversation(ctx, message);
    PinnedTrials(s, conv, env) + DefaultTrials(After(s, env.tags), message, conv, env)
  }

  /** The endpoint's reply, the clients it called in order, and the state it leaves. */
  datatype Reply = Reply(answer: string, provider: string, context: Context, attempts: seq<Provider>, server: Server)

  /**
    The end of the endpoint once the call sites are known: the first accepted one answers;
    without one, the keyword table answers, and without a keyword the apology does. Every
    answer but the apology is merged into the context; the apology returns it as given.
   */
  function Decide(s: Server, ctx: Context, message: string, ts: seq<Trial>): (r: Reply)
    ensures r.server == s && r.attempts == RunTrials(ts).attempts
    ensures forall i :: IsFirstAccepted(ts, i) ==>
      && r.answer == ts[i].outcome.answer && r.provider == ts[i].outcome.provider
      && r.context == Merge(ctx, message, r.answer)
    ensures NoneAccepted(ts) && Fallback.Respond(message).Some? ==>
      r.answer == Fallback.Respond(message).value && r.provider == RuleLabel && r.context == Merge(ctx, message, r.answer)
    ensures NoneAccepted(ts) && Fallback.Respond(message).None? ==>
      r.answer == Fallback.Unavailable && r.provider == ErrorLabel && r.context == ctx
  {
    var run := RunTrials(ts);
    match run.winner
    case Some(w) =>
      forall i | IsFirstAccepted(ts, i) ensures i == w {
        FirstAcceptedUnique(ts, i, w);
      }
      var answer := ts[w].outcome.answer;
      Reply(answer, ts[w].outcome.provider, Merge(ctx, message, answer), run.attempts, s)
    case None =>
      match Fallback.Respond(message)
      case Some(answer) => Reply(answer, RuleLabel, Merge(ctx, message, answer), run.attempts, s)
      case None => Reply(Fallback.Unavailable, ErrorLabel, ctx, run.attempts, s)
  }

  /**
    `chat_endpoint(req)`: the call sites are the pinned provider's (when Gemini or Ollama is
    pinned), then Gemini, OpenAI and Ollama; the first whose answer is accepted answers, and
    the rest is as `Decide` describes. Only a pinned Ollama's `check_connection()` changes the
    server state.
   */
  function Chat(s: Server, ctx: Context, message: string, env: Env): (r: Reply)
    ensures r.server == After(s, env.tags)
    ensures r.attempts == RunTrials(Trials(s, ctx, message, env)).attempts
    ensures forall i :: IsFirstAccepted(Trials(s, ctx, message, env), i) ==>
      && r.answer == Trials(s, ctx, message, env)[i].outcome.answer
      && r.provider == Trials(s, ctx, message, env)[i].outcome.provider
      && r.context == Merge(ctx, message, r.answer)
    ensures NoneAccepted(Trials(s, ctx, message, env)) && Fallback.Respond(message).Some? ==>
      r.answer == Fallback.Respond(message).value && r.provider == RuleLabel && r.context == Merge(ctx, message, r.answer)
    ensures NoneAccepted(Trials(s, ctx, message, env)) && Fallback.Respond(message).None? ==>
      r.answer == Fallback.Unavailable && r.provider == ErrorLabel && r.context == ctx
  {
    Decide(After(s, env.tags), ctx, message, Trials(s, ctx, message, env))
  }
}

=== FILE: chat_properties.dfy ===
/**
  What the `/chat` endpoint does across its inputs: the order in which it calls the
  clients, when a pinned provider is honoured and when it is not, which failures slip
  through the answer filters, and what a pinned Ollama does to the server state.
 */
module ChatProperties {
  import opened Wrappers
  import opened Text
  import opened ChatContext
  import opened Orchestration
  import opened Registry
  import opened Chat
  import GeminiClient
  import OllamaClient
  import Fallback

  /** Without an honoured pin the calls go Gemini, OpenAI, Ollama, each at most once. */
  lemma UnpinnedOrder(s: Server, ctx: Context, message: string, env: Env)
    requires s.selected !in {Some(Gemini), Some(Ollama)}
    ensures RanksRise(Chat.Chat(s, ctx, message, env).attempts)
  {
    var ts := Trials(s, ctx, message, env);
    assert ts == DefaultTrials(After(s, env.tags), message, Conversation(ctx, message), env);
    RunRanksRise(ts);
  }

  /** The server state passed to `Decide` only comes back as the reply's state. */
  lemma DecideIgnoresServer(s1: Server, s2: Server, ctx: Context, message: string, ts: seq<Trial>)
    ensures Decide(s1, ctx, message, ts).(server := s2) == Decide(s2, ctx, message, ts)
  {
  }

  /** The call sites do not depend on an OpenAI pin. */
  lemma OpenAIPinTrials(s: Server, ctx: Context, message: string, env: Env)
    ensures Trials(s.(selected := Some(OpenAI)), ctx, message, env) == Trials(s.(selected := None), ctx, message, env)
  {
    var a, b := s.(selected := Some(OpenAI)), s.(selected := None);
    var conv := Conversation(ctx, message);
    assert Trials(a, ctx, message, env) == DefaultTrials(a, message, conv, env);
    assert Trials(b, ctx, message, env) == DefaultTrials(b, message, conv, env);
  }

  /**
    Pinning OpenAI has no effect on a chat request: the reply is the one the same server
    gives with no pin, apart from the pin itself.
   */
  lemma OpenAIPinIsInert(s: Server, ctx: Context, message: string, env: Env)
    ensures
      var pinned := Chat.Chat(s.(selected := Some(OpenAI)), ctx, message, env);
      var free := Chat.Chat(s.(selected := None), ctx, message, env);
      pinned.(server := free.server) == free && pinned.server == free.server.(selected := Some(OpenAI))
  {
    var a, b := s.(selected := Some(OpenAI)), s.(selected := None);
    OpenAIPinTrials(s, ctx, message, env);
    DecideIgnoresServer(a, b, ctx, message, Trials(a, ctx, message, env));
  }

  /**
    A pinned Gemini that is configured, or a pinned Ollama whose daemon answers the model
    listing, is the first client called.
   */
  lemma PinnedTriedFirst(s: Server, ctx: Context, message: string, env: Env)
    requires (s.selected == Some(Gemini) && s.gemini.configured) || (s.selected == Some(Ollama) && env.tags.Listed?)
    ensures |Chat.Chat(s, ctx, message, env).attempts| > 0
    ensures Some(Chat.Chat(s, ctx, message, env).attempts[0]) == s.selected
  {
    var conv := Conversation(ctx, message);
    var ts := Trials(s, ctx, message, env);
    assert ts[0] == PinnedTrials(s, conv, env)[0];
    RunStartsWithFirst(ts);
  }

  /**
    With Gemini pinned and configured, a rejected answer from the pinned call is followed by
    a second Gemini call with the same prompt: the first two clients called are both Gemini.
   */
  lemma PinnedGeminiTriedTwice(s: Server, ctx: Context, message: string, env: Env)
    requires s.selected == Some(Gemini) && s.gemini.configured
    requires !(env.geminiPinned(GeminiClient.PromptOf(Conversation(ctx, message))).Generated?
               && GeminiAcceptable(env.geminiPinned(GeminiClient.PromptOf(Conversation(ctx, message))).text))
    ensures |Chat.Chat(s, ctx, message, env).attempts| >= 2
    ensures Chat.Chat(s, ctx, message, env).attempts[..2] == [Gemini, Gemini]
  {
    var conv := Conversation(ctx, message);
    var ts := Trials(s, ctx, message, env);
    assert ts == [GeminiTrial(s.gemini, conv, env.geminiPinned)] + DefaultTrials(s, message, conv, env);
    assert ts[1] == GeminiTrial(s.gemini, conv, env.geminiDefault);
    RunStartsWith(ts);
  }

  /**
    A pinned Ollama refreshes the model list before its call, which resets the current model
    to the preferred one whenever the daemon lists it, whatever was switched to before.
   */
  lemma PinnedOllamaResetsModel(s: Server, ctx: Context, message: string, env: Env)
    requires s.selected == Some(Ollama)
    requires env.tags.Listed? && OllamaClient.PreferredModel in env.tags.names
    ensures Chat.Chat(s, ctx, message, env).server.ollama.current == Some(OllamaClient.PreferredModel)
  {
  }

  /**
    So a model switch through `/switch_model` is undone by the next chat request: after
    switching to "ollama:name" the current model is `name`, and after one chat it is the
    preferred model again.
   */
  lemma SwitchUndoneByChat(s: Server, name: string, ctx: Context, message: string, env: Env)
    requires name in s.ollama.available && name != OllamaClient.PreferredModel
    requires |name| > 0 && !IsSpace(name[0]) && !IsSpace(name[|name| - 1])
    requires env.tags.Listed? && OllamaClient.PreferredModel in env.tags.names
    ensures SwitchModel(s, Some("ollama:" + name)).1.ollama.current == Some(name)
    ensures Chat.Chat(SwitchModel(s, Some("ollama:" + name)).1, ctx, message, env).server.ollama.current
      == Some(OllamaClient.PreferredModel)
  {
    var full := "ollama:" + name;
    SplitAtFirstUnique(full, ':', "ollama", name);
    StripTrimmedIsIdentity("ollama");
    LowerOfLowerIsIdentity("ollama");
    StripTrimmedIsIdentity(name);
    assert ProviderPart(full) == Some("ollama");
    assert ModelPart(full) == name;
    PinnedOllamaResetsModel(SwitchModel(s, Some(full)).1, ctx, message, env);
  }

  /** The pinned Ollama call site when the daemon lists no models and none was chosen before. */
  lemma PinnedOllamaTrialWithoutModel(s: Server, ctx: Context, message: string, env: Env)
    requires s.selected == Some(Ollama) && env.tags == OllamaClient.Listed([]) && s.ollama.current.None?
    ensures Trials(s, ctx, message, env)[0] == Trial(Ollama, Accepted(OllamaClient.NoModel, OllamaLabel("None")))
  {
    var st := OllamaClient.CheckConnection(s.ollama, env.tags).1;
    assert st.current.None?;
  }

  /**
    With Ollama pinned, a daemon that lists no models and no model chosen before, the client's
    own "No model available" passes the filter and is returned as Ollama's answer, labelled
    "Ollama (None)"; nothing else is called.
   */
  lemma PinnedOllamaWithoutModel(s: Server, ctx: Context, message: string, env: Env)
    requires s.selected == Some(Ollama) && env.tags == OllamaClient.Listed([]) && s.ollama.current.None?
    ensures Chat.Chat(s, ctx, message, env).answer == OllamaClient.NoModel
    ensures Chat.Chat(s, ctx, message, env).provider == OllamaLabel("None")
    ensures Chat.Chat(s, ctx, message, env).attempts == [Ollama]
  {
    PinnedOllamaTrialWithoutModel(s, ctx, message, env);
    FirstTrialAccepted(Trials(s, ctx, message, env));
  }

  /**
    A pinned Ollama call that times out is not refused: the timeout text carries no "Error:"
    marker, so it is returned as the model's answer.
   */
  lemma PinnedOllamaTimeoutIsAnswer(s: Server, ctx: Context, message: string, env: Env)
    requires s.selected == Some(Ollama) && env.tags.Listed?
    requires OllamaClient.Truthy(After(s, env.tags).ollama.current)
    requires env.ollamaPinned(OllamaRequestFor(After(s, env.tags).ollama.current.value, Conversation(ctx, message)))
      == OllamaClient.TimedOut
    ensures Chat.Chat(s, ctx, message, env).answer == OllamaClient.TimeoutText
    ensures Chat.Chat(s, ctx, message, env).provider == OllamaLabel(After(s, env.tags).ollama.current.value)
  {
    var conv := Conversation(ctx, message);
    var st := After(s, env.tags).ollama;
    var t := OllamaPinnedTrial(true, st, conv, env.ollamaPinned);
    assert OllamaPasses(OllamaClient.TimedOut);
    var ts := Trials(s, ctx, message, env);
    assert ts[0] == t;
    FirstTrialAccepted(ts);
  }

  /**
    A Fibonacci request for C++ or Python is answered from the template without asking the
    daemon: the reply is the same whatever the default Ollama call would have returned.
   */
  lemma QuickCodeIgnoresDaemon(s: Server, ctx: Context, message: string, env: Env, daemon: OllamaClient.Daemon)
    requires OllamaClient.QuickCode(message).Some?
    ensures Chat.Chat(s, ctx, message, env) == Chat.Chat(s, ctx, message, env.(ollamaDefault := daemon))
  {
    var conv := Conversation(ctx, message);
    var s' := After(s, env.tags);
    var other := env.(ollamaDefault := daemon);
    assert OllamaDefaultTrial(s'.ollama, message, conv, env.ollamaDefault)
        == OllamaDefaultTrial(s'.ollama, message, conv, daemon);
    assert Trials(s, ctx, message, env) == Trials(s, ctx, message, other);
  }

  /** No call site's accepted answer is labelled "Error Fallback". */
  lemma BackendsNeverErrorLabelled(s: Server, ctx: Context, message: string, env: Env)
    ensures forall i :: 0 <= i < |Trials(s, ctx, message, env)| && Trials(s, ctx, message, env)[i].outcome.Accepted? ==>
      Trials(s, ctx, message, env)[i].outcome.provider != ErrorLabel
  {
    OnlyApologyIsErrorLabelled();
    var conv := Conversation(ctx, message);
    var pinned := PinnedTrials(s, conv, env);
    var defaults := DefaultTrials(After(s, env.tags), message, conv, env);
    var ts := Trials(s, ctx, message, env);
    assert ts == pinned + defaults;
    forall i | 0 <= i < |ts| && ts[i].outcome.Accepted? ensures ts[i].outcome.provider != ErrorLabel {
      if i >= |pinned| {
        assert ts[i] == defaults[i - |pinned|];
      }
    }
  }

  /**
    The apology, and only the apology, is labelled "Error Fallback" and leaves the context as
    given; every other reply records the message and the answer in it.
   */
  lemma ContextRecordsAnswer(s: Server, ctx: Context, message: string, env: Env)
    ensures
      var r := Chat.Chat(s, ctx, message, env);
      && (WellFormed(ctx) ==> WellFormed(r.context))
      && (r.provider == ErrorLabel <==> NoneAccepted(Trials(s, ctx, message, env)) && Fallback.Respond(message).None?)
      && (r.provider == ErrorLabel ==> r.answer == Fallback.Unavailable && r.context == ctx)
      && (r.provider != ErrorLabel ==>
            Lookup(r.context, LastMessage) == Some(message) && Lookup(r.context, LastAnswer) == Some(r.answer))
  {
    OnlyApologyIsErrorLabelled();
    BackendsNeverErrorLabelled(s, ctx, message, env);
    var ts := Trials(s, ctx, message, env);
    var run := RunTrials(ts);
    if run.winner.Some? {
      assert IsFirstAccepted(ts, run.winner.value);
    }
  }
}

=== FILE: context.dfy ===
/**
  The per-conversation context the caller sends with every chat request: a Python `dict` from
  string keys to values. It is modelled as an association list so that iteration order is the
  dict's insertion order; every value is held as the text `str(value)` renders it to.
 */
module ChatContext {
  import opened Wrappers

  type Entry = (string, string)
  type Context = seq<Entry>

  const LastMessage := "last_message"
  const LastAnswer := "last_answer"

  /** The keys in iteration order. */
  function Keys(ctx: Context): (ks: seq<string>)
    ensures |ks| == |ctx|
    ensures forall i :: 0 <= i < |ctx| ==> ks[i] == ctx[i].0
  {
    if |ctx| == 0 then [] else [ctx[0].0] + Keys(ctx[1..])
  }

  predicate Distinct(ks: seq<string>) {
    forall i, j :: 0 <= i < j < |ks| ==> ks[i] != ks[j]
  }

  lemma KeysCons(e: Entry, rest: Context)
    ensures Keys([e] + rest) == [e.0] + Keys(rest)
  {
  }

  /** What a Python dict can be: no key twice. */
  predicate WellFormed(ctx: Context) {
    Distinct(Keys(ctx))
  }

  /** `ctx.get(k)` */
  function Lookup(ctx: Context, k: string): (r: Option<string>)
    ensures r.Some? <==> k in Keys(ctx)
  {
    if |ctx| == 0 then None
    else if ctx[0].0 == k then Some(ctx[0].1)
    else Lookup(ctx[1..], k)
  }

  /**
    `ctx[k] = v`: an existing key keeps its position and takes the new value, a new key is
    appended at the end.
   */
  function Put(ctx: Context, k: string, v: string): (r: Context)
    ensures |r| == if k in Keys(ctx) then |ctx| else |ctx| + 1
  {
    if |ctx| == 0 then [(k, v)]
    else if ctx[0].0 == k then [(k, v)] + ctx[1..]
    else [ctx[0]] + Put(ctx[1..], k, v)
  }

  /** After `ctx[k] = v`, `k` reads `v` and every other key reads what it read before. */
  lemma {:induction false} PutLookup(ctx: Context, k: string, v: string)
    ensures Lookup(Put(ctx, k, v), k) == Some(v)
    ensures forall k' :: k' != k ==> Lookup(Put(ctx, k, v), k') == Lookup(ctx, k')
    decreases |ctx|
  {
    if |ctx| > 0 && ctx[0].0 != k {
      PutLookup(ctx[1..], k, v);
      assert ([ctx[0]] + Put(ctx[1..], k, v))[1..] == Put(ctx[1..], k, v);
    } else if |ctx| > 0 {
      assert ([(k, v)] + ctx[1..])[1..] == ctx[1..];
    }
  }

  /** `ctx[k] = v` keeps the key order: a known key stays in place, a new one goes last. */
  lemma {:induction false} PutKeys(ctx: Context, k: string, v: string)
    ensures k in Keys(ctx) ==> Keys(Put(ctx, k, v)) == Keys(ctx)
    ensures k !in Keys(ctx) ==> Keys(Put(ctx, k, v)) == Keys(ctx) + [k]
    decreases |ctx|
  {
    if |ctx| > 0 {
      assert ctx == [ctx[0]] + ctx[1..];
      KeysCons(ctx[0], ctx[1..]);
      if ctx[0].0 == k {
        KeysCons((k, v), ctx[1..]);
      } else {
        PutKeys(ctx[1..], k, v);
        KeysCons(ctx[0], Put(ctx[1..], k, v));
      }
    }
  }

  /** `ctx[k] = v` never creates a duplicate key. */
  lemma PutWellFormed(ctx: Context, k: string, v: string)
    ensures WellFormed(ctx) ==> WellFormed(Put(ctx, k, v))
  {
    PutKeys(ctx, k, v);
    var ks := Keys(ctx);
    if WellFormed(ctx) && k !in ks {
      var ks' := ks + [k];
      forall i, j | 0 <= i < j < |ks'| ensures ks'[i] != ks'[j] {
        if j == |ks| { assert ks'[i] == ks[i]; }
      }
    }
  }

  /** The keys of `ks` that `ctx` does not hold yet, in the order of `ks`. */
  function NewKeys(ctx: Context, ks: seq<string>): seq<string> {
    if |ks| == 0 then []
    else (if ks[0] in Keys(ctx) then [] else [ks[0]]) + NewKeys(ctx, ks[1..])
  }

  /** The new keys among two, in their order. */
  lemma NewKeysPair(ctx: Context, k1: string, k2: string)
    ensures NewKeys(ctx, [k1, k2])
         == (if k1 in Keys(ctx) then [] else [k1]) + (if k2 in Keys(ctx) then [] else [k2])
  {
    var a := if k2 in Keys(ctx) then [] else [k2];
    assert [k2][1..] == [];
    assert NewKeys(ctx, [k2]) == a + [];
    assert [k1, k2][1..] == [k2];
  }

  /** Two writes to distinct keys add the new ones at the end, in the order written. */
  lemma PutPutKeys(ctx: Context, k1: string, v1: string, k2: string, v2: string)
    requires k1 != k2
    ensures Keys(Put(Put(ctx, k1, v1), k2, v2)) == Keys(ctx) + NewKeys(ctx, [k1, k2])
  {
    var first := Put(ctx, k1, v1);
    PutKeys(ctx, k1, v1);
    PutKeys(first, k2, v2);
    NewKeysPair(ctx, k1, k2);
    var m := if k1 in Keys(ctx) then [] else [k1];
    assert Keys(first) == Keys(ctx) + m;
    assert k2 !in m;
    assert k2 in Keys(first) <==> k2 in Keys(ctx);
  }

  lemma MergeKeys(ctx: Context, message: string, answer: string)
    ensures Keys(Put(Put(ctx, LastMessage, message), LastAnswer, answer))
         == Keys(ctx) + NewKeys(ctx, [LastMessage, LastAnswer])
  {
    assert LastMessage[5] != LastAnswer[5];
    PutPutKeys(ctx, LastMessage, message, LastAnswer, answer);
  }

  /**
    The context after a request that produced `answer` for `message`: `last_message` and
    `last_answer` are overwritten and nothing else changes.
   */
  function Merge(ctx: Context, message: string, answer: string): (r: Context)
    ensures Lookup(r, LastMessage) == Some(message)
    ensures Lookup(r, LastAnswer) == Some(answer)
    ensures forall k :: k != LastMessage && k != LastAnswer ==> Lookup(r, k) == Lookup(ctx, k)
    ensures Keys(r) == Keys(ctx) + NewKeys(ctx, [LastMessage, LastAnswer])
    ensures WellFormed(ctx) ==> WellFormed(r)
  {
    var first := Put(ctx, LastMessage, message);
    PutLookup(ctx, LastMessage, message);
    PutLookup(first, LastAnswer, answer);
    MergeKeys(ctx, message, answer);
    PutWellFormed(ctx, LastMessage, message);
    PutWellFormed(first, LastAnswer, answer);
    Put(first, LastAnswer, answer)
  }

  /** One `f"{key}: {value}\n"` line. */
  function Line(e: Entry): string {
    e.0 + ": " + e.1 + "\n"
  }

  /** The context string handed to the backends: one line per entry, in context order. */
  function Render(ctx: Context): (r: string)
    ensures r == "" <==> |ctx| == 0
  {
    if |ctx| == 0 then "" else Line(ctx[0]) + Render(ctx[1..])
  }

  /** Rendering distributes over concatenation, so the lines appear in entry order. */
  lemma {:induction false} RenderConcat(a: Context, b: Context)
    ensures Render(a + b) == Render(a) + Render(b)
    decreases |a|
  {
    if |a| == 0 {
      assert a + b == b;
    } else {
      assert (a + b)[1..] == a[1..] + b;
      RenderConcat(a[1..], b);
    }
  }

  /** Each entry contributes exactly its own line at its own place. */
  lemma {:induction false} RenderLines(ctx: Context, i: nat)
    requires i < |ctx|
    ensures Render(ctx) == Render(ctx[..i]) + Line(ctx[i]) + Render(ctx[i + 1..])
  {
    assert ctx == ctx[..i] + ([ctx[i]] + ctx[i + 1..]);
    RenderConcat(ctx[..i], [ctx[i]] + ctx[i + 1..]);
    assert ([ctx[i]] + ctx[i + 1..])[1..] == ctx[i + 1..];
  }
}

=== FILE: fallback.dfy ===
/**
  The rule-based answers the chat endpoint gives when no backend answered: a fixed table of
  keyword/answer pairs scanned in order against the normalised message.
 */
module Fallback {
  import opened Wrappers
  import opened Text

  type Rule = (string, string)

  /** The keyword table, in the dict's insertion order. */
  const Table: seq<Rule> := [
    ("hello", "Hello! I'm an AI assistant ready to help you."),
    ("hi", "Hi there! How can I assist you today?"),
    ("how are you", "I'm doing well, thank you for asking! How can I help you?"),
    ("what is your name", "I'm your AI Assistant, powered by multiple AI providers including Gemini Pro, OpenAI, and Ollama."),
    ("help", "I can help you with various tasks like answering questions, writing code, creative writing, math problems, and general conversation. What would you like assistance with?"),
    ("bye", "Goodbye! Feel free to chat with me anytime."),
    ("thank you", "You're welcome! Is there anything else I can help you with?"),
    ("weather", "I don't have access to real-time weather data, but I'd be happy to help you with other questions!")
  ]

  /** The answer when no keyword occurs. */
  const Unavailable := "I'm sorry, all AI providers are currently unavailable. Please try again later or check your connection."

  /** `message.lower().strip()` */
  function Normalize(message: string): string {
    Strip(Lower(message))
  }

  /** Rule `i` is the first rule of `rules` whose keyword occurs in `text`. */
  predicate IsFirstMatch(rules: seq<Rule>, text: string, i: int) {
    && 0 <= i < |rules|
    && Contains(text, rules[i].0)
    && forall j :: 0 <= j < i ==> !Contains(text, rules[j].0)
  }

  /** The index of the first rule whose keyword occurs in `text`, if any. */
  function FirstMatch(rules: seq<Rule>, text: string): (r: Option<nat>)
    ensures r.Some? ==> IsFirstMatch(rules, text, r.value)
    ensures r.None? ==> forall j :: 0 <= j < |rules| ==> !Contains(text, rules[j].0)
  {
    if |rules| == 0 then None
    else if Contains(text, rules[0].0) then Some(0)
    else match FirstMatch(rules[1..], text)
      case None => None
      case Some(i) => Some(i + 1)
  }

  /**
    The table's answer for a message: the answer of the first rule, in table order, whose
    keyword occurs in the normalised message; none when no keyword occurs.
   */
  function Respond(message: string): (r: Option<string>)
    ensures r.Some? ==> exists i :: IsFirstMatch(Table, Normalize(message), i) && r.value == Table[i].1
    ensures r.None? <==> forall j :: 0 <= j < |Table| ==> !Contains(Normalize(message), Table[j].0)
  {
    match FirstMatch(Table, Normalize(message))
    case None => None
    case Some(i) => Some(Table[i].1)
  }

  /** No keyword starts or ends with whitespace. */
  predicate Trimmed(rules: seq<Rule>) {
    forall i :: 0 <= i < |rules| ==> |rules[i].0| > 0 && !IsSpace(rules[i].0[0]) && !IsSpace(rules[i].0[|rules[i].0| - 1])
  }

  lemma TableTrimmed()
    ensures Trimmed(Table)
  {
    forall i | 0 <= i < |Table|
      ensures |Table[i].0| > 0 && !IsSpace(Table[i].0[0]) && !IsSpace(Table[i].0[|Table[i].0| - 1])
    {
      if i == 0 {} else if i == 1 {} else if i == 2 {} else if i == 3 {}
      else if i == 4 {} else if i == 5 {} else if i == 6 {} else {}
    }
  }

  /**
    The `strip()` before matching changes nothing: a message matches the same rules, and gets
    the same answer, as its lower-cased form with the surrounding whitespace kept.
   */
  lemma StripIsIrrelevant(message: string)
    ensures forall j :: 0 <= j < |Table| ==>
      (Contains(Normalize(message), Table[j].0) <==> Contains(Lower(message), Table[j].0))
    ensures Respond(message) == match FirstMatch(Table, Lower(message))
      case None => None
      case Some(i) => Some(Table[i].1)
  {
    TableTrimmed();
    forall j | 0 <= j < |Table|
      ensures Contains(Normalize(message), Table[j].0) <==> Contains(Lower(message), Table[j].0)
    {
      StripKeepsOccurrence(Lower(message), Table[j].0);
    }
    FirstMatchAgrees(Table, Normalize(message), Lower(message));
  }

  /** Two texts that match the same rules get the same first match. */
  lemma {:induction false} FirstMatchAgrees(rules: seq<Rule>, a: string, b: string)
    requires forall j :: 0 <= j < |rules| ==> (Contains(a, rules[j].0) <==> Contains(b, rules[j].0))
    ensures FirstMatch(rules, a) == FirstMatch(rules, b)
    decreases |rules|
  {
    if |rules| > 0 && !Contains(a, rules[0].0) {
      assert forall j :: 0 <= j < |rules| - 1 ==> rules[1..][j] == rules[j + 1];
      FirstMatchAgrees(rules[1..], a, b);
    }
  }
}

=== FILE: gemini.dfy ===
/**
  The Google Gemini client (`GeminiClient` in gemini_client.py): whether it is configured,
  the prompt it builds from a message list, and the in-band texts it returns instead of
  raising. The SDK's configuration step and its generation call are inputs.
 */
module GeminiClient {
  import opened Wrappers
  import opened Text
  import Prompt

  /** `is_configured` */
  datatype State = State(configured: bool)

  /** What `generate_content` did: produced text, or raised. */
  datatype SdkOutcome = Generated(text: string) | Raised(error: string)

  /** The generative model, as a function of the prompt it is given. */
  type Model = string -> SdkOutcome

  const NotConfigured := "Gemini not configured"
  const ErrorPrefix := "Gemini error: "

  /** Python truthiness of an optional API key. */
  predicate HasKey(apiKey: Option<string>) {
    apiKey.Some? && apiKey.value != ""
  }

  /**
    `setup_client()`: without a key nothing happens; with one, the client becomes configured
    exactly when the SDK accepts it, and a failure leaves the state as it was.
   */
  function SetupClient(st: State, apiKey: Option<string>, sdkAccepts: bool): (r: (bool, State))
    ensures r.0 <==> HasKey(apiKey) && sdkAccepts
    ensures r.0 ==> r.1.configured
    ensures !r.0 ==> r.1 == st
  {
    if !HasKey(apiKey) then (false, st)
    else if sdkAccepts then (true, State(true))
    else (false, st)
  }

  /** The constructor: the explicit key or else the environment's, then one `setup_client()`. */
  function Init(apiKey: Option<string>, envKey: Option<string>, sdkAccepts: bool): (st: State)
    ensures st.configured <==> (HasKey(apiKey) || HasKey(envKey)) && sdkAccepts
  {
    var key := if HasKey(apiKey) then apiKey else envKey;
    SetupClient(State(false), key, sdkAccepts).1
  }

  /** `generate_response(prompt)`: never raises; failures come back as text. */
  function GenerateResponse(st: State, prompt: string, model: Model): (r: string)
    ensures !st.configured ==> r == NotConfigured
    ensures st.configured && model(prompt).Generated? ==> r == model(prompt).text
    ensures st.configured && model(prompt).Raised? ==> r == ErrorPrefix + model(prompt).error
  {
    if !st.configured then NotConfigured
    else match model(prompt)
      case Generated(text) => text
      case Raised(e) => ErrorPrefix + e
  }

  /** System turns read "Instructions: ..." followed by a blank line. */
  const Style := Prompt.Style("Instructions: ", "\n\n")

  /** The prompt `chat_completion` builds from a message list. */
  function PromptOf(messages: seq<Prompt.Message>): string {
    Prompt.Flatten(Style, messages)
  }

  /** `chat_completion(messages)` */
  function ChatCompletion(st: State, messages: seq<Prompt.Message>, model: Model): (r: string)
    ensures !st.configured ==> r == NotConfigured
    ensures st.configured ==> r == GenerateResponse(st, PromptOf(messages), model)
  {
    if !st.configured then NotConfigured else GenerateResponse(st, PromptOf(messages), model)
  }

  /** The two markers by which the caller recognises a failure reported in-band. */
  predicate Flagged(answer: string) {
    Contains(answer, "Gemini error") || Contains(answer, "not configured")
  }

  /**
    Every failure the client reports in-band carries one of the markers, so only generated
    text can pass as an answer: the returned text is unflagged exactly when the client is
    configured, the model produced text, and that text is itself unflagged.
   */
  lemma FailuresAreFlagged(st: State, prompt: string, model: Model)
    ensures !Flagged(GenerateResponse(st, prompt, model)) <==>
      st.configured && model(prompt).Generated? && !Flagged(model(prompt).text)
  {
    if !st.configured {
      assert OccursAt(NotConfigured, "not configured", 7);
    } else if model(prompt).Raised? {
      var e := model(prompt).error;
      assert ErrorPrefix + e == "Gemini error" + (": " + e);
      ContainsOwnPrefix("Gemini error", ": " + e);
    }
  }
}

=== FILE: ollama.dfy ===
/**
  The local Ollama client (`OllamaClient` in ollama_client.py): which model it uses, how a
  message list becomes one prompt, which generation options a prompt gets, how each outcome of
  the HTTP call becomes the returned text, and the canned Fibonacci answers. The daemon's
  `/api/tags` listing and `/api/generate` reply are inputs.
 */
module OllamaClient {
  import opened Wrappers
  import opened Text
  import Prompt
  import QuickTemplates

  /** `available_models` and `current_model`. */
  datatype State = State(available: seq<string>, current: Option<string>)

  /** Python truthiness of an optional model name: present and not empty. */
  predicate Truthy(m: Option<string>) {
    m.Some? && m.value != ""
  }

  /** `str(current_model)` as an f-string shows it. */
  function ShowModel(m: Option<string>): string {
    match m
    case None => "None"
    case Some(name) => name
  }

  /** What `GET /api/tags` gave: a 200 reply listing model names, or anything else. */
  datatype TagsOutcome = Listed(names: seq<string>) | Unreachable

  const PreferredModel := "mistral:latest"
  const SecondChoiceModel := "gpt-oss:20b"

  /** How much the client prefers a model as its default: lower is better. */
  function Preference(name: string): nat {
    if name == PreferredModel then 0 else if name == SecondChoiceModel then 1 else 2
  }

  /**
    The model chosen after a listing: the most preferred listed model, the first listed one
    among equals; with nothing listed, the current choice stays.
   */
  function DefaultModel(names: seq<string>, current: Option<string>): (r: Option<string>)
    ensures |names| == 0 ==> r == current
    ensures |names| > 0 ==> r.Some? && r.value in names
    ensures |names| > 0 ==> forall n :: n in names ==> Preference(r.value) <= Preference(n)
    ensures |names| > 0 && Preference(r.value) == 2 ==> r.value == names[0]
  {
    if PreferredModel in names then Some(PreferredModel)
    else if SecondChoiceModel in names then Some(SecondChoiceModel)
    else if |names| > 0 then Some(names[0])
    else current
  }

  /** `check_connection()`: on a listing, refresh the models and reset the default model. */
  function CheckConnection(st: State, tags: TagsOutcome): (r: (bool, State))
    ensures r.0 <==> tags.Listed?
    ensures tags.Listed? ==> r.1.available == tags.names
    ensures tags.Listed? && |tags.names| > 0 ==> r.1.current.Some? && r.1.current.value in tags.names
    ensures tags.Listed? ==> r.1.current == DefaultModel(tags.names, st.current)
    ensures !tags.Listed? ==> r.1 == st
  {
    match tags
    case Listed(names) => (true, State(names, DefaultModel(names, st.current)))
    case Unreachable => (false, st)
  }

  /** The constructor: no models, no current model, then one `check_connection()`. */
  function Init(tags: TagsOutcome): (st: State)
    ensures tags.Unreachable? ==> st == State([], None)
    ensures tags.Listed? ==> st.available == tags.names && (st.current.Some? <==> |tags.names| > 0)
  {
    CheckConnection(State([], None), tags).1
  }

  /** `switch_model(name)`: only a listed model can be selected. */
  function SwitchModel(st: State, name: string): (r: (bool, State))
    ensures r.0 <==> name in st.available
    ensures r.0 ==> r.1 == st.(current := Some(name))
    ensures !r.0 ==> r.1 == st
  {
    if name in st.available then (true, st.(current := Some(name))) else (false, st)
  }

  /** The current model is one of the listed models. */
  predicate Consistent(st: State) {
    st.current.Some? ==> st.current.value in st.available
  }

  /**
    Switching keeps the current model among the listed ones, and so does a non-empty listing;
    an empty listing leaves a model that is no longer listed.
   */
  lemma ConsistencyAcrossCalls(st: State, name: string, tags: TagsOutcome)
    ensures Consistent(st) ==> Consistent(SwitchModel(st, name).1)
    ensures Consistent(st) && !(tags.Listed? && |tags.names| == 0) ==> Consistent(CheckConnection(st, tags).1)
    ensures st.current.Some? && tags == Listed([]) ==> !Consistent(CheckConnection(st, tags).1)
  {
  }

  /**
    A later listing that includes the preferred model takes the client back to it, undoing an
    earlier `switch_model` to any other model.
   */
  lemma ListingUndoesSwitch(st: State, name: string, names: seq<string>)
    requires name in st.available && name != PreferredModel
    requires PreferredModel in names
    ensures SwitchModel(st, name).1.current == Some(name)
    ensures CheckConnection(SwitchModel(st, name).1, Listed(names)).1.current == Some(PreferredModel)
  {
  }

  /** Generation options; the two float settings are kept as opaque labels. */
  datatype Options = Options(temperature: string, topP: string, maxTokens: nat, stop: seq<string>)

  /** The `POST /api/generate` request: model, prompt, options and the client-side timeout. */
  datatype Request = Request(model: string, prompt: string, options: Options, timeout: nat)

  /** What the POST produced: a reply with a status code, the `response` field of the JSON
      body (absent or not) and the body text; a timeout; or any other exception. */
  datatype PostOutcome = Replied(status: nat, response: Option<string>, body: string) | TimedOut | Raised(error: string)

  /** The daemon, as a function of the request it is sent. */
  type Daemon = Request -> PostOutcome

  const CodeKeywords: seq<string> := ["program", "code", "function", "cpp", "python", "java", "javascript", "algorithm"]

  /** A prompt asks for code when its lower-cased text mentions one of the code keywords. */
  predicate IsCodeRequest(prompt: string) {
    exists i :: 0 <= i < |CodeKeywords| && Contains(Lower(prompt), CodeKeywords[i])
  }

  /** The request for a prompt: focused options and a 15-second timeout for code, the caller's
      timeout and shorter answers otherwise. */
  function BuildRequest(model: string, prompt: string, timeout: nat): (r: Request)
    ensures r.model == model && r.prompt == prompt
    ensures IsCodeRequest(prompt) ==> r.options.maxTokens == 500 && r.timeout == 15 && r.options.stop == ["\n\n\n"]
    ensures !IsCodeRequest(prompt) ==> r.options.maxTokens == 200 && r.timeout == timeout && r.options.stop == []
  {
    if IsCodeRequest(prompt) then Request(model, prompt, Options("0.3", "0.8", 500, ["\n\n\n"]), 15)
    else Request(model, prompt, Options("0.7", "0.9", 200, []), timeout)
  }

  const NoModel := "No model available"
  const NoResponse := "No response generated"
  /** The timeout message, in short pieces so that `TimeoutTextHasNoColon` can check its characters. */
  const TimeoutText := "Request timed out. " + "Ollama is taking " + "too long to respond."
  const ExceptionPrefix := "Error generating response: "
  const ErrorMarker := "Error:"

  /** The text `generate_response` returns for each outcome of the POST; it never raises. */
  function Interpret(o: PostOutcome): string {
    match o
    case Replied(status, response, body) =>
      if status == 200 then response.GetOr(NoResponse) else "Error: " + Decimal(status) + " - " + body
    case TimedOut => TimeoutText
    case Raised(e) => ExceptionPrefix + e
  }

  lemma TimeoutTextHasNoColon()
    ensures ':' !in TimeoutText
  {
    assert ':' !in "Request timed out. ";
    assert ':' !in "Ollama is taking ";
    assert ':' !in "too long to respond.";
  }

  lemma TimeoutTextUnmarked()
    ensures !Contains(TimeoutText, ErrorMarker)
  {
    TimeoutTextHasNoColon();
    MissingCharExcludes(TimeoutText, ErrorMarker, 5);
  }

  lemma NoResponseUnmarked()
    ensures !Contains(NoResponse, ErrorMarker)
  {
    assert ':' !in NoResponse;
    MissingCharExcludes(NoResponse, ErrorMarker, 5);
  }

  lemma ExceptionTextMarkedIff(e: string)
    ensures Contains(ExceptionPrefix + e, ErrorMarker) <==> Contains(e, ErrorMarker)
  {
    assert ExceptionPrefix[5] != ErrorMarker[5];
    assert 'E' !in ExceptionPrefix[1..] by {
      assert ExceptionPrefix[1..] == "rror generating response: ";
    }
    PrefixAddsNoOccurrence(ExceptionPrefix, e, ErrorMarker);
  }

  lemma StatusTextMarked(status: nat, body: string)
    ensures Contains("Error: " + Decimal(status) + " - " + body, ErrorMarker)
  {
    var rest := " " + Decimal(status) + " - " + body;
    assert "Error: " + Decimal(status) + " - " + body == ErrorMarker + rest;
    ContainsOwnPrefix(ErrorMarker, rest);
  }

  /**
    Which returned texts carry the "Error:" marker: exactly the non-200 replies, and whatever
    text already carried it. The timeout text, the missing-field text and the exception prefix
    do not carry it.
   */
  lemma ErrorMarkerIn(o: PostOutcome)
    ensures Contains(Interpret(o), ErrorMarker) <==>
      || (o.Replied? && o.status != 200)
      || (o.Replied? && o.status == 200 && o.response.Some? && Contains(o.response.value, ErrorMarker))
      || (o.Raised? && Contains(o.error, ErrorMarker))
    ensures Interpret(o) == "" <==> o.Replied? && o.status == 200 && o.response == Some("")
  {
    match o
    case Replied(status, response, body) =>
      if status != 200 {
        StatusTextMarked(status, body);
      } else if response.None? {
        NoResponseUnmarked();
      }
    case TimedOut =>
      TimeoutTextUnmarked();
    case Raised(e) =>
      ExceptionTextMarkedIff(e);
  }

  /** Which model a call uses: `model or self.current_model`. */
  function Resolve(model: Option<string>, current: Option<string>): Option<string> {
    if Truthy(model) then model else current
  }

  /** `generate_response(prompt, model, timeout)` */
  function GenerateResponse(st: State, prompt: string, model: Option<string>, timeout: nat, daemon: Daemon): (r: string)
    ensures !Truthy(Resolve(model, st.current)) ==> r == NoModel
    ensures Truthy(Resolve(model, st.current)) ==>
      r == Interpret(daemon(BuildRequest(Resolve(model, st.current).value, prompt, timeout)))
  {
    var m := Resolve(model, st.current);
    if !Truthy(m) then NoModel else Interpret(daemon(BuildRequest(m.value, prompt, timeout)))
  }

  /** System turns read "System: ...". */
  const Style := Prompt.Style("System: ", "\n")

  /** The prompt `chat_completion` builds from a message list. */
  function PromptOf(messages: seq<Prompt.Message>): string {
    Prompt.Flatten(Style, messages)
  }

  /** `chat_completion(messages, model)`: flatten, then generate with the default timeout of 10. */
  function ChatCompletion(st: State, messages: seq<Prompt.Message>, model: Option<string>, daemon: Daemon): (r: string)
    ensures !Truthy(Resolve(model, st.current)) ==> r == NoModel
    ensures Truthy(Resolve(model, st.current)) ==>
      r == Interpret(daemon(BuildRequest(Resolve(model, st.current).value, PromptOf(messages), 10)))
  {
    var m := Resolve(model, st.current);
    if !Truthy(m) then NoModel else GenerateResponse(st, PromptOf(messages), m, 10, daemon)
  }

  /** Either spelling of "fibonacci" the templates react to. */
  predicate MentionsFibonacci(text: string) {
    Contains(text, "fibonacci") || Contains(text, "fabonaci")
  }

  predicate MentionsCpp(text: string) {
    Contains(text, "cpp") || Contains(text, "c++")
  }

  predicate MentionsPython(text: string) {
    Contains(text, "python")
  }

  /**
    `quick_code_response(request)`: a canned program for a Fibonacci request in C++ or
    Python, matched case-insensitively; C++ wins when both languages are named.
   */
  function QuickCode(request: string): (r: Option<Template>)
    ensures r == Some(CppFibonacci) <==> MentionsFibonacci(Lower(request)) && MentionsCpp(Lower(request))
    ensures r == Some(PythonFibonacci) <==>
      MentionsFibonacci(Lower(request)) && !MentionsCpp(Lower(request)) && MentionsPython(Lower(request))
    ensures r.None? <==> !MentionsFibonacci(Lower(request)) || (!MentionsCpp(Lower(request)) && !MentionsPython(Lower(request)))
  {
    var text := Lower(request);
    if MentionsFibonacci(text) && MentionsCpp(text) then Some(CppFibonacci)
    else if MentionsFibonacci(text) && MentionsPython(text) then Some(PythonFibonacci)
    else None
  }

  /** The two canned answers. */
  datatype Template = CppFibonacci | PythonFibonacci {
    function Text(): string {
      match this
      case CppFibonacci => QuickTemplates.Cpp()
      case PythonFibonacci => QuickTemplates.Python()
    }
  }
}

=== FILE: orchestration.dfy ===
/**
  The shape of the chat endpoint's decision: a sequence of trials, one per backend call site,
  each of which is skipped (the backend is unavailable), rejected (it was called and its
  answer refused) or accepted. The first accepted trial answers the request and no later
  trial is attempted.
 */
module Orchestration {
  import opened Wrappers

  datatype Provider = Gemini | OpenAI | Ollama

  /** Position in the default priority order Gemini, OpenAI, Ollama. */
  function Rank(p: Provider): nat {
    match p
    case Gemini => 0
    case OpenAI => 1
    case Ollama => 2
  }

  datatype Outcome = Skipped | Rejected | Accepted(answer: string, provider: string)

  datatype Trial = Trial(backend: Provider, outcome: Outcome)

  /**
    The clients called, in call order: every trial that was not skipped. A client counts as
    called when its call site is entered, even if it answers without reaching its backend.
   */
  function Attempted(ts: seq<Trial>): (r: seq<Provider>)
    ensures |r| <= |ts|
  {
    if |ts| == 0 then []
    else (if ts[0].outcome.Skipped? then [] else [ts[0].backend]) + Attempted(ts[1..])
  }

  /** Trial `i` is accepted and no trial before it is. */
  predicate IsFirstAccepted(ts: seq<Trial>, i: int) {
    && 0 <= i < |ts|
    && ts[i].outcome.Accepted?
    && forall j :: 0 <= j < i ==> !ts[j].outcome.Accepted?
  }

  predicate NoneAccepted(ts: seq<Trial>) {
    forall j :: 0 <= j < |ts| ==> !ts[j].outcome.Accepted?
  }

  /** Which clients were called, and which trial answered, if any. */
  datatype Run = Run(attempts: seq<Provider>, winner: Option<nat>)

  /**
    Try the trials in order and stop at the first accepted one: it is the winner, and the
    clients called are exactly the non-skipped trials up to and including it. Without a
    winner every non-skipped trial was called.
   */
  function RunTrials(ts: seq<Trial>): (r: Run)
    ensures r.winner.Some? ==> IsFirstAccepted(ts, r.winner.value)
    ensures r.winner.Some? ==> r.attempts == Attempted(ts[..r.winner.value + 1])
    ensures r.winner.None? ==> NoneAccepted(ts) && r.attempts == Attempted(ts)
  {
    if |ts| == 0 then Run([], None)
    else if ts[0].outcome.Accepted? then
      assert Attempted(ts[..1]) == [ts[0].backend] by {
        assert ts[..1][1..] == [];
      }
      Run([ts[0].backend], Some(0))
    else
      var rest := RunTrials(ts[1..]);
      var here := if ts[0].outcome.Skipped? then [] else [ts[0].backend];
      match rest.winner
      case None =>
        Run(here + rest.attempts, None)
      case Some(w) =>
        assert ts[..w + 2][1..] == ts[1..][..w + 1];
        Run(here + rest.attempts, Some(w + 1))
  }

  /** There is at most one first accepted trial. */
  lemma FirstAcceptedUnique(ts: seq<Trial>, i: int, j: int)
    requires IsFirstAccepted(ts, i) && IsFirstAccepted(ts, j)
    ensures i == j
  {
  }

  /** Calls follow the order of the trials: strictly rising ranks stay strictly rising. */
  predicate RanksRise(ps: seq<Provider>) {
    forall i, j :: 0 <= i < j < |ps| ==> Rank(ps[i]) < Rank(ps[j])
  }

  predicate TrialRanksRise(ts: seq<Trial>) {
    forall i, j :: 0 <= i < j < |ts| ==> Rank(ts[i].backend) < Rank(ts[j].backend)
  }

  /** Some trial for `p` was not skipped. */
  predicate CalledIn(ts: seq<Trial>, p: Provider) {
    exists i :: 0 <= i < |ts| && ts[i].backend == p && !ts[i].outcome.Skipped?
  }

  /** Every client called is the client of a trial that was not skipped. */
  lemma {:induction false} AttemptedComesFrom(ts: seq<Trial>)
    ensures forall k :: 0 <= k < |Attempted(ts)| ==> CalledIn(ts, Attempted(ts)[k])
    decreases |ts|
  {
    if |ts| > 0 {
      AttemptedComesFrom(ts[1..]);
      var here := if ts[0].outcome.Skipped? then [] else [ts[0].backend];
      var rest := Attempted(ts[1..]);
      assert Attempted(ts) == here + rest;
      forall k | 0 <= k < |Attempted(ts)|
        ensures CalledIn(ts, Attempted(ts)[k])
      {
        if k < |here| {
          assert ts[0].backend == Attempted(ts)[k] && !ts[0].outcome.Skipped?;
        } else {
          assert Attempted(ts)[k] == rest[k - |here|];
          assert CalledIn(ts[1..], rest[k - |here|]);
          var i :| 0 <= i < |ts[1..]| && ts[1..][i].backend == rest[k - |here|] && !ts[1..][i].outcome.Skipped?;
          assert ts[1..][i] == ts[i + 1];
          assert ts[i + 1].backend == Attempted(ts)[k] && !ts[i + 1].outcome.Skipped?;
        }
      }
    }
  }

  lemma {:induction false} AttemptedRanksRise(ts: seq<Trial>)
    requires TrialRanksRise(ts)
    ensures RanksRise(Attempted(ts))
    decreases |ts|
  {
    if |ts| > 0 {
      assert TrialRanksRise(ts[1..]) by {
        forall i, j | 0 <= i < j < |ts[1..]| ensures Rank(ts[1..][i].backend) < Rank(ts[1..][j].backend) {
          assert ts[1..][i] == ts[i + 1] && ts[1..][j] == ts[j + 1];
        }
      }
      AttemptedRanksRise(ts[1..]);
      AttemptedComesFrom(ts[1..]);
      var rest := Attempted(ts[1..]);
      var all := Attempted(ts);
      forall i, j | 0 <= i < j < |all| ensures Rank(all[i]) < Rank(all[j]) {
        if !ts[0].outcome.Skipped? && i == 0 {
          assert CalledIn(ts[1..], rest[j - 1]);
          var m :| 0 <= m < |ts[1..]| && ts[1..][m].backend == rest[j - 1] && !ts[1..][m].outcome.Skipped?;
          assert ts[m + 1].backend == all[j];
        } else if !ts[0].outcome.Skipped? {
          assert all[i] == rest[i - 1] && all[j] == rest[j - 1];
        } else {
          assert all == rest;
        }
      }
    }
  }

  /** An accepted first trial answers alone. */
  lemma FirstTrialAccepted(ts: seq<Trial>)
    requires |ts| > 0 && ts[0].outcome.Accepted?
    ensures IsFirstAccepted(ts, 0)
    ensures RunTrials(ts).attempts == [ts[0].backend]
  {
  }

  /** Under rising ranks no client is called twice, and calls come in priority order. */
  lemma RunRanksRise(ts: seq<Trial>)
    requires TrialRanksRise(ts)
    ensures RanksRise(RunTrials(ts).attempts)
  {
    var run := RunTrials(ts);
    if run.winner.Some? {
      var prefix := ts[..run.winner.value + 1];
      assert TrialRanksRise(prefix) by {
        forall i, j | 0 <= i < j < |prefix| ensures Rank(prefix[i].backend) < Rank(prefix[j].backend) {
          assert prefix[i] == ts[i] && prefix[j] == ts[j];
        }
      }
      AttemptedRanksRise(prefix);
    } else {
      AttemptedRanksRise(ts);
    }
  }

  /** A first trial that is called is the first call. */
  lemma RunStartsWithFirst(ts: seq<Trial>)
    requires |ts| > 0 && !ts[0].outcome.Skipped?
    ensures |RunTrials(ts).attempts| > 0 && RunTrials(ts).attempts[0] == ts[0].backend
  {
    if !ts[0].outcome.Accepted? {
      var rest := RunTrials(ts[1..]);
      assert RunTrials(ts).attempts == [ts[0].backend] + rest.attempts;
    }
  }

  /**
    When the first trial is called and rejected and the second is called, the calls begin
    with those two backends, whatever follows.
   */
  lemma RunStartsWith(ts: seq<Trial>)
    requires |ts| >= 2 && ts[0].outcome.Rejected? && !ts[1].outcome.Skipped?
    ensures |RunTrials(ts).attempts| >= 2
    ensures RunTrials(ts).attempts[..2] == [ts[0].backend, ts[1].backend]
  {
    var rest := RunTrials(ts[1..]);
    assert ts[1..][0] == ts[1];
    var inner := RunTrials(ts[1..][1..]);
    assert rest.attempts == [ts[1].backend] + inner.attempts || rest.attempts == [ts[1].backend];
  }
}

=== FILE: prompt.dfy ===
/**
  Chat messages in OpenAI's `{"role": ..., "content": ...}` shape, and the flattening of a
  message list into one text prompt that both the Ollama and the Gemini clients perform. The
  two clients differ only in how a system turn is written.
 */
module Prompt {
  import opened Wrappers

  /** A message dict; a key that is absent is `None`. */
  datatype Message = Message(role: Option<string>, content: Option<string>)

  function SystemTurn(text: string): Message { Message(Some("system"), Some(text)) }
  function UserTurn(text: string): Message { Message(Some("user"), Some(text)) }

  /** How a client writes a system turn: `prefix + content + suffix`. */
  datatype Style = Style(systemPrefix: string, systemSuffix: string)

  const Closing := "Assistant: "

  /** `msg.get('role', 'user')` */
  function RoleOf(m: Message): string { m.role.GetOr("user") }

  /** `msg.get('content', '')` */
  function ContentOf(m: Message): string { m.content.GetOr("") }

  /** The prompt text one message contributes; roles other than the three known ones add nothing. */
  function TurnText(style: Style, m: Message): string {
    var c := ContentOf(m);
    match RoleOf(m)
    case "system" => style.systemPrefix + c + style.systemSuffix
    case "user" => "Human: " + c + "\n"
    case "assistant" => "Assistant: " + c + "\n"
    case _ => ""
  }

  /** The messages' texts, in order. */
  function Body(style: Style, ms: seq<Message>): string {
    if |ms| == 0 then "" else TurnText(style, ms[0]) + Body(style, ms[1..])
  }

  /** The prompt a client sends: every message in order, then the assistant cue. */
  function Flatten(style: Style, ms: seq<Message>): string {
    Body(style, ms) + Closing
  }

  /** Whatever the messages, the prompt ends with the assistant cue. */
  lemma FlattenEndsWithCue(style: Style, ms: seq<Message>)
    ensures |Flatten(style, ms)| >= |Closing|
    ensures Flatten(style, ms)[|Flatten(style, ms)| - |Closing|..] == Closing
  {
    var body := Body(style, ms);
    assert (body + Closing)[|body|..] == Closing;
  }

  /** Flattening works message by message: a list splits into the texts of its parts. */
  lemma {:induction false} BodyConcat(style: Style, a: seq<Message>, b: seq<Message>)
    ensures Body(style, a + b) == Body(style, a) + Body(style, b)
    decreases |a|
  {
    if |a| == 0 {
      assert a + b == b;
    } else {
      assert (a + b)[1..] == a[1..] + b;
      BodyConcat(style, a[1..], b);
    }
  }

  /** A system turn is wrapped in the style's prefix and suffix; a user turn is a "Human: " line. */
  lemma KnownTurns(style: Style, text: string)
    ensures TurnText(style, SystemTurn(text)) == style.systemPrefix + text + style.systemSuffix
    ensures TurnText(style, UserTurn(text)) == "Human: " + text + "\n"
    ensures Body(style, [SystemTurn(text)]) == TurnText(style, SystemTurn(text))
    ensures Body(style, [UserTurn(text)]) == TurnText(style, UserTurn(text))
  {
    assert [SystemTurn(text)][1..] == [];
    assert [UserTurn(text)][1..] == [];
  }

  /** A message list is flattened message by message: the first message's text comes first. */
  lemma FlattenCons(style: Style, m: Message, ms: seq<Message>)
    ensures Flatten(style, [m] + ms) == TurnText(style, m) + Flatten(style, ms)
  {
    BodyConcat(style, [m], ms);
    assert [m][1..] == [];
  }

  /** A message without a role is read as a user turn. */
  lemma MissingRoleIsUser(style: Style, m: Message)
    requires m.role.None?
    ensures TurnText(style, m) == "Human: " + ContentOf(m) + "\n"
  {
  }

  /** A message whose role is none of the three known ones adds nothing to the prompt. */
  lemma UnknownRoleIgnored(style: Style, m: Message, ms: seq<Message>)
    requires RoleOf(m) != "system" && RoleOf(m) != "user" && RoleOf(m) != "assistant"
    ensures Flatten(style, [m] + ms) == Flatten(style, ms)
  {
    FlattenCons(style, m, ms);
    assert TurnText(style, m) == "";
  }
}

=== FILE: registry.dfy ===
/**
  The backend's module-level state (the three clients and `selected_provider`) and the
  `/switch_model` endpoint that changes it.
 */
module Registry {
  import opened Wrappers
  import opened Text
  import opened Orchestration
  import GeminiClient
  import OllamaClient

  /**
    The state main.py keeps between requests: the pinned provider (`None` for the default
    order), the Gemini client, whether an OpenAI client was created, and the Ollama client.
   */
  datatype Server = Server(
    selected: Option<Provider>,
    gemini: GeminiClient.State,
    openaiPresent: bool,
    ollama: OllamaClient.State)

  /** The JSON reply of `/switch_model`: `{message, current_model, provider}` or `{error}`. */
  datatype SwitchReply = Switched(message: string, currentModel: string, provider: string) | Refused(error: string)

  /** `s.split(c, 1)` for a string that contains `c`. */
  function SplitAtFirst(s: string, c: char): (r: (string, string))
    requires c in s
    ensures s == r.0 + [c] + r.1
    ensures c !in r.0
  {
    if s[0] == c then
      assert s == [] + [c] + s[1..];
      ([], s[1..])
    else
      var rest := SplitAtFirst(s[1..], c);
      assert s == [s[0]] + s[1..];
      ([s[0]] + rest.0, rest.1)
  }

  /** The provider part of `"provider: model"`, stripped and lower-cased; none without a colon. */
  function ProviderPart(name: string): Option<string> {
    if ':' in name then Some(Lower(Strip(SplitAtFirst(name, ':').0))) else None
  }

  /** The model part of `"provider: model"`, stripped. */
  function ModelPart(name: string): string
    requires ':' in name
  {
    Strip(SplitAtFirst(name, ':').1)
  }

  /** The legacy form: the whole string names an Ollama model. */
  function SwitchLegacy(s: Server, name: string): (r: (SwitchReply, Server))
    ensures name in s.ollama.available ==>
      r == (Switched("Switched to Ollama: " + name, name, "ollama"),
            s.(selected := Some(Ollama), ollama := s.ollama.(current := Some(name))))
    ensures name !in s.ollama.available ==> r == (Refused("Could not switch to " + name), s)
  {
    var (ok, ollama) := OllamaClient.SwitchModel(s.ollama, name);
    if ok then (Switched("Switched to Ollama: " + name, name, "ollama"), s.(selected := Some(Ollama), ollama := ollama))
    else (Refused("Could not switch to " + name), s)
  }

  /**
    `switch_model({"model": model})`. A missing or empty name is refused with no change.
    `"gemini: m"` and `"openai: m"` always pin that provider. `"ollama: m"` pins Ollama even
    when `m` is not an available model, and switches the Ollama model only when it is. Any
    other string, with or without a colon, is an Ollama model name in full, and pins Ollama
    only when that model can be switched to. Gemini and OpenAI state is never touched.
   */
  function SwitchModel(s: Server, model: Option<string>): (r: (SwitchReply, Server))
    ensures r.1.gemini == s.gemini && r.1.openaiPresent == s.openaiPresent
    ensures model.None? || model.value == "" ==> r == (Refused("Model name required"), s)
    ensures model.Some? && model.value != "" && ProviderPart(model.value) == Some("gemini") ==>
      r.1 == s.(selected := Some(Gemini)) && r.0.Switched? && r.0.currentModel == ModelPart(model.value)
    ensures model.Some? && model.value != "" && ProviderPart(model.value) == Some("openai") ==>
      r.1 == s.(selected := Some(OpenAI)) && r.0.Switched? && r.0.currentModel == ModelPart(model.value)
    ensures model.Some? && model.value != "" && ProviderPart(model.value) == Some("ollama") ==>
      && r.1.selected == Some(Ollama)
      && r.1.ollama == OllamaClient.SwitchModel(s.ollama, ModelPart(model.value)).1
      && (r.0.Switched? <==> ModelPart(model.value) in s.ollama.available)
    ensures model.Some? && model.value != "" && ProviderPart(model.value) !in {Some("gemini"), Some("openai"), Some("ollama")} ==>
      r == SwitchLegacy(s, model.value)
  {
    if model.None? || model.value == "" then (Refused("Model name required"), s)
    else
      var name := model.value;
      if ':' in name then
        var provider := ProviderPart(name).value;
        var actual := ModelPart(name);
        if provider == "gemini" then
          (Switched("Switched to Gemini Pro", actual, "gemini"), s.(selected := Some(Gemini)))
        else if provider == "ollama" then
          var (ok, ollama) := OllamaClient.SwitchModel(s.ollama, actual);
          var s' := s.(selected := Some(Ollama), ollama := ollama);
          if ok then (Switched("Switched to Ollama: " + actual, actual, "ollama"), s')
          else (Refused("Could not switch to Ollama: " + actual), s')
        else if provider == "openai" then
          (Switched("Switched to OpenAI: " + actual, actual, "openai"), s.(selected := Some(OpenAI)))
        else SwitchLegacy(s, name)
      else SwitchLegacy(s, name)
  }

  /**
    A refusal changes nothing, except the one case the code lets through: an `"ollama: m"`
    request for an unavailable model still pins Ollama.
   */
  lemma RefusalKeepsState(s: Server, model: Option<string>)
    requires SwitchModel(s, model).0.Refused?
    ensures SwitchModel(s, model).1 == s
         || (model.Some? && ProviderPart(model.value) == Some("ollama") && SwitchModel(s, model).1 == s.(selected := Some(Ollama)))
  {
  }

  /** Where the parts of `before + [c] + after` sit. */
  lemma PartsAt(s: string, c: char, before: string, after: string)
    requires s == before + [c] + after
    ensures s[|before|] == c
    ensures forall i :: 0 <= i < |before| ==> s[i] == before[i]
    ensures s[..|before|] == before && s[|before| + 1..] == after
  {
  }

  /** The split is determined by its two properties: the text before the first colon, and the rest. */
  lemma SplitAtFirstUnique(s: string, c: char, before: string, after: string)
    requires s == before + [c] + after && c !in before
    ensures SplitAtFirst(s, c) == (before, after)
  {
    var r := SplitAtFirst(s, c);
    PartsAt(s, c, before, after);
    PartsAt(s, c, r.0, r.1);
    if |r.0| < |before| {
      assert false;
    } else if |r.0| > |before| {
      assert false;
    }
  }

  /**
    Ollama's own tag names contain a colon ("mistral:latest"); when the family name before it
    is no provider name, the whole tag is read as an Ollama model name, as the legacy form.
   */
  lemma TagNamesAreLegacy(s: Server, family: string, tag: string)
    requires family != "" && ':' !in family
    requires !IsSpace(family[0]) && !IsSpace(family[|family| - 1])
    requires forall i :: 0 <= i < |family| ==> !('A' <= family[i] <= 'Z')
    requires family !in {"gemini", "openai", "ollama"}
    ensures SwitchModel(s, Some(family + ":" + tag)) == SwitchLegacy(s, family + ":" + tag)
  {
    var name := family + ":" + tag;
    SplitAtFirstUnique(name, ':', family, tag);
    StripTrimmedIsIdentity(family);
    LowerOfLowerIsIdentity(family);
    assert ProviderPart(name) == Some(family);
  }
}

=== FILE: templates.dfy ===
/**
  The canned Fibonacci programs `quick_code_response` answers with, verbatim.

  A note on spelling, which holds for the two programs here and for Ollama's timeout message:
  a long text whose characters a proof inspects is written as a concatenation of short
  literals, because the verifier reasons about many short literals far more cheaply than
  about one long one. The two programs also sit behind a one-step recursion (`guarded`), so
  that the verifier unfolds a program's text only where a proof asks for its characters;
  `Cpp()` and `Python()` are the texts themselves.
 */
module QuickTemplates {

  /** The C++ program. */
  function Cpp(): string { CppText(true) }

  function CppText(guarded: bool): string
    decreases if guarded then 1 else 0
  {
    if guarded then CppText(false) else
    "Here's a C++ program" + " for Fibonacci"
    + " sequence:\n"
    + "\n"
    + "```cpp\n"
    + "#include <iostream>\n"
    + "using namespace std;\n"
    + "\n"
    + "int fibonacci(int n) {\n"
    + "    if (n <= 1)\n"
    + "        return n;\n"
    + "    return fibonacci(n" + " - 1) +"
    + " fibonacci(n - 2);\n"
    + "}\n"
    + "\n"
    + "// Iterative version" + " (more efficient)\n"
    + "int" + " fibonacciIterative(int" + " n) {\n"
    + "    if (n <= 1) return" + " n;\n"
    + "    \n"
    + "    int a = 0, b = 1," + " c;\n"
    + "    for (int i = 2; i" + " <= n; i++) {\n"
    + "        c = a + b;\n"
    + "        a = b;\n"
    + "        b = c;\n"
    + "    }\n"
    + "    return b;\n"
    + "}\n"
    + "\n"
    + "int main() {\n"
    + "    int n;\n"
    + "    cout << \"Enter" + " number of terms: \";\n"
    + "    cin >> n;\n"
    + "    \n"
    + "    cout << \"Fibonacci" + " sequence: \";\n"
    + "    for (int i = 0; i <" + " n; i++) {\n"
    + "        cout <<" + " fibonacciIterative(i)"
    + " << \" \";\n"
    + "    }\n"
    + "    cout << endl;\n"
    + "    \n"
    + "    return 0;\n"
    + "}\n"
    + "```\n"
    + "\n"
    + "This program includes" + " both recursive"
    + " and iterative versions" + " of Fibonacci"
    + " calculation. The" + " iterative version is"
    + " more efficient for" + " larger numbers."
  }

  /** The Python program. */
  function Python(): string { PythonText(true) }

  function PythonText(guarded: bool): string
    decreases if guarded then 1 else 0
  {
    if guarded then PythonText(false) else
    "Here's a Python program" + " for Fibonacci"
    + " sequence:\n"
    + "\n"
    + "```python\n"
    + "def" + " fibonacci_recursive(n):" + "\n"
    + "    if n <= 1:\n"
    + "        return n\n"
    + "    return" + " fibonacci_recursive(n-1" + ") +"
    + " fibonacci_recursive(n-2" + ")\n"
    + "\n"
    + "def" + " fibonacci_iterative(n):" + "\n"
    + "    if n <= 1:\n"
    + "        return n\n"
    + "    \n"
    + "    a, b = 0, 1\n"
    + "    for _ in range(2, n" + " + 1):\n"
    + "        a, b = b, a + b\n"
    + "    return b\n"
    + "\n"
    + "def" + " fibonacci_sequence(n):\n"
    + "    return" + " [fibonacci_iterative(i)" + " for"
    + " i in range(n)]\n"
    + "\n"
    + "# Main program\n"
    + "if __name__ ==" + " \"__main__\":\n"
    + "    n =" + " int(input(\"Enter" + " number of"
    + " terms: \"))\n"
    + "    \n"
    + "    print(\"Fibonacci" + " sequence:\")\n"
    + "    sequence =" + " fibonacci_sequence(n)\n"
    + "    print(\"" + " \".join(map(str," + " sequence)))\n"
    + "    \n"
    + "    print(f\"\\nThe {n}th" + " Fibonacci"
    + " number is:" + " {fibonacci_iterative(n)" + "}\")\n"
    + "```"
  }
}

=== FILE: text.dfy ===
/**
  String helpers standing in for the Python `str` operations the backend uses:
  `lower()`, `strip()`, the substring test `k in s` and `str(int)`.
  Case mapping and whitespace are ASCII only.
 */
module Text {

  /** Python's `str.isspace()` on the ASCII range: space, `\t` `\n` `\x0b` `\x0c` `\r`
      and the separators `\x1c`..`\x1f`. */
  predicate IsSpace(c: char) {
    c == ' ' || ('\t' <= c <= '\r') || ('\U{1C}' <= c <= '\U{1F}')
  }

  function LowerChar(c: char): char {
    if 'A' <= c <= 'Z' then (c as int + 32) as char else c
  }

  /** `s.lower()` */
  function Lower(s: string): (r: string)
    ensures |r| == |s|
    ensures forall i :: 0 <= i < |s| ==> r[i] == LowerChar(s[i])
  {
    seq(|s|, i requires 0 <= i < |s| => LowerChar(s[i]))
  }

  lemma LowerConcat(a: string, b: string)
    ensures Lower(a + b) == Lower(a) + Lower(b)
  {
    assert forall i :: 0 <= i < |a + b| ==> Lower(a + b)[i] == (Lower(a) + Lower(b))[i];
  }

  /** Index of the first non-space character (|s| when there is none). */
  function ContentStart(s: string): (a: nat)
    ensures a <= |s|
    ensures forall i :: 0 <= i < a ==> IsSpace(s[i])
    ensures a < |s| ==> !IsSpace(s[a])
  {
    if |s| == 0 || !IsSpace(s[0]) then 0 else 1 + ContentStart(s[1..])
  }

  /** One past the last non-space character at or after `lo`. */
  function ContentEnd(s: string, lo: nat): (b: nat)
    requires lo <= |s|
    ensures lo <= b <= |s|
    ensures forall i :: b <= i < |s| ==> IsSpace(s[i])
    ensures b > lo ==> !IsSpace(s[b - 1])
  {
    if |s| == lo || !IsSpace(s[|s| - 1]) then |s| else ContentEnd(s[..|s| - 1], lo)
  }

  /** `s.strip()`: drop leading and trailing whitespace. */
  function Strip(s: string): (r: string)
    ensures r == s[ContentStart(s)..ContentEnd(s, ContentStart(s))]
    ensures |r| > 0 ==> !IsSpace(r[0]) && !IsSpace(r[|r| - 1])
  {
    var a := ContentStart(s);
    s[a..ContentEnd(s, a)]
  }

  /** A string that neither starts nor ends with whitespace is its own `strip()`. */
  lemma StripTrimmedIsIdentity(s: string)
    requires |s| > 0 && !IsSpace(s[0]) && !IsSpace(s[|s| - 1])
    ensures Strip(s) == s
  {
  }

  /** A string without upper-case letters is its own `lower()`. */
  lemma LowerOfLowerIsIdentity(s: string)
    requires forall i :: 0 <= i < |s| ==> !('A' <= s[i] <= 'Z')
    ensures Lower(s) == s
  {
  }

  /** `k` occurs in `s` starting at index `i`. */
  predicate OccursAt(s: string, k: string, i: int) {
    0 <= i && i + |k| <= |s| && s[i..i + |k|] == k
  }

  /** Python's `k in s` for strings: `k` occurs as a contiguous substring of `s`. */
  predicate Contains(s: string, k: string) {
    exists i :: 0 <= i <= |s| - |k| && OccursAt(s, k, i)
  }

  /** A string occurs in any string it starts. */
  lemma ContainsOwnPrefix(k: string, rest: string)
    ensures Contains(k + rest, k)
  {
    assert OccursAt(k + rest, k, 0);
  }

  lemma ContainsLeft(a: string, b: string, k: string)
    requires Contains(a, k)
    ensures Contains(a + b, k)
  {
    var i :| 0 <= i <= |a| - |k| && OccursAt(a, k, i);
    assert (a + b)[i..i + |k|] == a[i..i + |k|];
    assert OccursAt(a + b, k, i);
  }

  lemma ContainsRight(a: string, b: string, k: string)
    requires Contains(b, k)
    ensures Contains(a + b, k)
  {
    var i :| 0 <= i <= |b| - |k| && OccursAt(b, k, i);
    assert (a + b)[|a| + i..|a| + i + |k|] == b[i..i + |k|];
    assert OccursAt(a + b, k, |a| + i);
  }

  /** A string lacking one of the characters of `k` cannot contain `k`. */
  lemma MissingCharExcludes(s: string, k: string, j: nat)
    requires j < |k| && k[j] !in s
    ensures !Contains(s, k)
  {
    forall i | 0 <= i <= |s| - |k| && OccursAt(s, k, i)
      ensures false
    {
    }
  }

  /**
    When the first character of `k` appears in `p` only at position 0 and `p` does not start
    with `k`, no occurrence of `k` in `p + e` can begin inside `p`: the prefix neither adds
    nor hides an occurrence.
   */
  lemma PrefixAddsNoOccurrence(p: string, e: string, k: string)
    requires 0 < |k| <= |p|
    requires k[0] !in p[1..]
    requires p[..|k|] != k
    ensures Contains(p + e, k) <==> Contains(e, k)
  {
    if Contains(p + e, k) {
      var i :| 0 <= i <= |p + e| - |k| && OccursAt(p + e, k, i);
      if i < |p| {
        assert false;
      }
      assert e[i - |p|..i - |p| + |k|] == (p + e)[i..i + |k|];
      assert OccursAt(e, k, i - |p|);
    }
    if Contains(e, k) {
      ContainsRight(p, e, k);
    }
  }

  /** An occurrence inside a slice is an occurrence in the whole string. */
  lemma SliceOccurrence(s: string, a: nat, b: nat, k: string)
    requires a <= b <= |s|
    requires Contains(s[a..b], k)
    ensures Contains(s, k)
  {
    var i :| 0 <= i <= |s[a..b]| - |k| && OccursAt(s[a..b], k, i);
    var inner, outer := s[a..b][i..i + |k|], s[a + i..a + i + |k|];
    assert forall j :: 0 <= j < |k| ==> outer[j] == inner[j];
    assert OccursAt(s, k, a + i);
  }

  /** An occurrence of a word that starts and ends with non-space characters lies inside any
      window outside of which there is only whitespace. */
  lemma OccurrenceInsideWindow(s: string, a: nat, b: nat, k: string)
    requires a <= b <= |s|
    requires forall i :: 0 <= i < a ==> IsSpace(s[i])
    requires forall i :: b <= i < |s| ==> IsSpace(s[i])
    requires |k| > 0 && !IsSpace(k[0]) && !IsSpace(k[|k| - 1])
    requires Contains(s, k)
    ensures Contains(s[a..b], k)
  {
    var i :| 0 <= i <= |s| - |k| && OccursAt(s, k, i);
    assert s[i] == k[0] by { assert s[i..i + |k|][0] == s[i]; }
    assert s[i + |k| - 1] == k[|k| - 1] by { assert s[i..i + |k|][|k| - 1] == s[i + |k| - 1]; }
    assert a <= i && i + |k| <= b;
    var inner, outer := s[a..b][i - a..i - a + |k|], s[i..i + |k|];
    assert forall j :: 0 <= j < |k| ==> inner[j] == outer[j];
    assert OccursAt(s[a..b], k, i - a);
  }

  /**
    Stripping never changes whether a word occurs, provided the word does not itself begin or
    end with whitespace.
   */
  lemma StripKeepsOccurrence(s: string, k: string)
    requires |k| > 0 && !IsSpace(k[0]) && !IsSpace(k[|k| - 1])
    ensures Contains(Strip(s), k) <==> Contains(s, k)
  {
    var a := ContentStart(s);
    var b := ContentEnd(s, a);
    if Contains(Strip(s), k) {
      SliceOccurrence(s, a, b, k);
    }
    if Contains(s, k) {
      OccurrenceInsideWindow(s, a, b, k);
    }
  }

  function DigitChar(d: nat): char
    requires d < 10
  {
    ('0' as int + d) as char
  }

  /** The number a string of decimal digits spells, most significant digit first. */
  function DigitsValue(s: string): int {
    if |s| == 0 then 0 else 10 * DigitsValue(s[..|s| - 1]) + (s[|s| - 1] as int - '0' as int)
  }

  /** `str(n)` for a non-negative integer: its decimal digits, most significant first. */
  function Decimal(n: nat): (r: string)
    ensures |r| > 0
    ensures forall i :: 0 <= i < |r| ==> '0' <= r[i] <= '9'
    ensures DigitsValue(r) == n
    ensures |r| > 1 ==> r[0] != '0'
  {
    if n < 10 then
      assert [DigitChar(n)][..0] == [];
      [DigitChar(n)]
    else
      var r := Decimal(n / 10) + [DigitChar(n % 10)];
      assert r[..|r| - 1] == Decimal(n / 10);
      r
  }
}

=== FILE: wrappers.dfy ===
/** Optional values: Python's `None` versus a present value. */
module Wrappers {

  datatype Option<+T> = None | Some(value: T) {

    /** The value if present, otherwise `default` (Python's `d.get(key, default)`). */
    function GetOr(default: T): T {
      match this
      case Some(v) => v
      case None => default
    }
  }
}
